=== FILE: README.md ===
# QuickShare, modelled in Dafny

QuickShare is a self-destructing text sharing service. A FastAPI backend
stores each paste encrypted under a random 8-character id. A paste can carry
a lifetime in hours and a view limit. Reading it counts one view. The row is
deleted on its last permitted view or on the first read after it expires.
A vanilla-JavaScript frontend has a create tab and a view tab, language and
theme switches, and a stand-alone view page.

This project models that core as pure Dafny functions over immutable data,
and proves what the code promises about it:

- `wrappers.dfy`: `Option` and `Result`.
- `text.dfy` (`Text`): the string operations the code leans on, with their
  exact semantics. These are JavaScript `split(...)[1]`, `split(...).pop()`,
  `replace` with a string pattern and `startsWith`. They also include
  Python `str.strip`, JavaScript `trim` (their whitespace sets differ) and
  decimal rendering.
- `js.dfy` (`Js`): JSON values as the browser sees them, with truthiness,
  `||` and template-literal rendering.
- `utils.dfy` (`Utils`): `encrypt_text`, `decrypt_text` and
  `generate_unique_id`.
- `models.dfy` and `schemas.dfy`: the `pastes` row as a map from
  `unique_id` to row, and the request and response bodies.
- `api.dfy` (`Api`): `create_paste` and `get_paste` as transitions of the
  store.
- `lifecycle.dfy` (`Lifecycle`): sequences of reads, and burn after reading
  end to end.
- `script.js` is modelled by `script.dfy` (`Script`): share-id extraction,
  hash routing, `switchTab`, `displayViewResult`, `createPaste` and
  `viewPaste`.
- `view.js` is modelled by `view.dfy` (`ViewPage`).
- `theme.js` is modelled by `theme.dfy` (`Theme`).
- `i18n.js` is modelled by `i18n.dfy` (`I18n`), including both translation
  tables entry for entry.

Several things are parameters rather than modelled:

- The clock is an integer reading in microseconds.
- `secrets.choice` is a picker function: the alphabet position drawn for
  character `i` of attempt `k`.
- Fernet is a pair of functions. Its two assumed properties, that
  non-empty text encrypts to a non-empty token and that decryption undoes
  encryption of non-empty text, are a hypothesis of the lemmas that need
  them.
- `BASE_URL`, `localStorage`, `navigator.language`, the colour-scheme query,
  the page's element ids and the time left until `expires_at` are inputs.

## Behaviour as written

These points follow the code where a higher-level description of the
service says otherwise:

- There is no password protection. `password_hash` is never written. The
  create response only reports `has_password = bool(password)`, and the
  password is then dropped. No route accepts `PasteVerifyRequest`.
- Expiry is strict. A read at exactly `created_at + expire_hours` hours still
  succeeds (`Api.GetExpiryIsStrict`).
- The three 404s carry different messages: not found, expired and used up.
  The view is committed before decryption, so a token that fails to decrypt
  still burns a view and gives a 500 (`Api.GetCommitsBeforeDecrypt`).
- A successful read returns only `content`. The view page's lifetime, view
  count and burn warning therefore always show their defaults
  (`ViewPage.ServerRepliesOnViewPage`). Its password branch is never taken.
- On a valid store the "view limit reached" refusal is unreachable. The row
  is deleted on its last permitted view
  (`Api.GetNeverRefusesForLimitOnValidStore`).
- The browser's blank check uses JavaScript `trim` and the server's uses
  Python `strip`, and the two disagree:
  - U+001C passes the browser and is refused by the server with 400.
  - U+FEFF is refused by the browser but accepted by the server.
  - See `Script.TrimAndStripDisagree`.
- Opening `#view?id=<id>` loads the paste, but `switchTab('view-tab')` then
  rewrites the hash to `#view`, so the id leaves the address bar
  (`Script.ShareLinkSettlesOnViewTab`).
- The stand-alone view page reads the id from the query string or the last
  path segment. Share links carry it in the fragment instead.
- `setTheme` with an unknown name selects the `system` slot. The raw name is
  still stored and written to the body (`Theme.UnknownThemeKeepsRawName`).

## Model

| member | source | states |
|---|---|---|
| Utils.EncryptText | backend/utils.py:32-43 | empty text gives the empty token; with a faithful cipher the token is empty only for empty text and decrypts back to the text |
| Utils.DecryptText | backend/utils.py:45-59 | the empty token decrypts to the empty text; it fails only when the cipher rejects a non-empty token, with `解密失败: ` before the cipher's message; otherwise it returns the cipher's plaintext |
| Utils.EncryptDecryptRoundTrip | backend/utils.py:32-59 | decrypt_text undoes encrypt_text for every text, the empty one included |
| Utils.AlphabetIsAlphanumeric | backend/utils.py:68 | `ascii_letters + digits` has 62 characters, each an ASCII letter or digit |
| Utils.AlphabetIndex | backend/utils.py:68 | every ASCII letter and digit occurs in the alphabet |
| Utils.GenerateUniqueId | backend/utils.py:61-69 | the id has the requested length and consists of ASCII letters and digits only |
| Utils.EveryAlphanumericIdIsGenerated | backend/utils.py:61-69 | conversely, every alphanumeric string of a given length is produced by some sequence of draws |
| Api.Candidate | backend/main.py:70-71 | each candidate id has 8 alphanumeric characters |
| Api.FirstFreeAttempt | backend/main.py:67-75 | the loop stops at the first candidate not in the table, all earlier ones being taken; it gives up only when all ten are taken |
| Api.Create | backend/main.py:58-103 | a failed create leaves the table unchanged; a successful one adds exactly the row of the returned id |
| Api.IsBlank | backend/main.py:58 | content is blank iff every one of its characters is Python whitespace |
| Api.ShareUrl | backend/main.py:94-95 | the share URL is `BASE_URL`, or `http://localhost:8000` when it is unset, immediately followed by `/#view?id=` and the id, with nothing in between |
| Api.Expired | backend/main.py:125-127 | a row without a positive `expire_hours` never expires; otherwise it expires iff strictly more than `expire_hours` hours have passed since `created_at` |
| Api.LimitReached | backend/main.py:132 | a row without a view limit never reaches it, nor does any well-formed row; a row with a limit reaches it exactly when no views remain |
| Api.Insert | backend/main.py:67-103 | no free id among ten gives 500 `无法生成唯一ID` and no change; otherwise a fresh 8-character id, a row with the encrypted content, the limits, zero views and no hash, and a response echoing the limits, `bool(password)` and the share URL |
| Api.Get | backend/main.py:116-146 | a read never adds rows and never touches another id's row; it succeeds only for a stored id |
| Api.CreateRejectsInvalidRequest | backend/main.py:58-65 | a 400 happens exactly for blank content, negative hours or negative views; blank content is reported first; the verdict does not depend on the id randomness and leaves the table unchanged |
| Api.CreateTakesFirstFreeCandidate | backend/main.py:67-78 | a valid request succeeds iff one of the ten candidates is free, and takes the first free one; otherwise 500 and no change |
| Api.CreateStoresFreshRecord | backend/main.py:80-103 | the new id was not in use, fits `String(10)` and is alphanumeric; its row has created_at = now, the requested limits, zero views, no hash, and content that decrypts to the request's; the rest of the table is unchanged; the response reports the limits, has_password iff a non-empty password, and the share URL |
| Api.CreatePreservesValid | backend/main.py:82-91 | after a create every row is still filed under its own id and well formed |
| Api.GetUnknownId | backend/main.py:117-120 | an unknown id is a 404 `链接不存在或已失效` and changes nothing |
| Api.GetExpiryIsStrict | backend/main.py:125-130 | a row with positive hours is deleted with a 404 `链接已过期` exactly when the clock is strictly past created_at plus its hours; a row with 0 hours is never refused for age |
| Api.GetNeverRefusesForLimitOnValidStore | backend/main.py:132-140 | on a valid table the "view limit reached" 404 never happens, because rows are deleted on their last permitted view |
| Api.GetRefusesUsedUpRow | backend/main.py:132-135 | a live row whose views are used up is deleted and refused with 404 `链接已达到查看次数限制` |
| Api.GetCountsOneView | backend/main.py:137-142 | reading a live row counts exactly one view; the row is deleted iff it has a limit and this view reaches it; nothing else changes |
| Api.GetCommitsBeforeDecrypt | backend/main.py:142-152 | the table after a read does not depend on the cipher; success returns the decrypted content; a decryption failure is a 500 `获取内容失败: ` plus the error |
| Api.GetFailureKinds | backend/main.py:116-152 | every failed read is a 404 with one of the three lookup messages, or a 500 starting with `获取内容失败: ` |
| Api.DefaultRowLivesForever | backend/models.py:11-15 | a row at its column defaults never expires, is never used up however often it is read, and is well formed when its id fits |
| Api.GetPreservesValid | backend/main.py:125-142 | after a read every row is still filed under its own id and well formed |
| Lifecycle.LimitedReads | backend/main.py:132-146 | a limited row with n views left answers exactly n reads within its lifetime with its content; the last read deletes it and leaves the rest of the table unchanged |
| Lifecycle.UnlimitedReads | backend/main.py:137-146 | an unlimited row answers every read within its lifetime with its content and stays, its count raised by the number of reads |
| Lifecycle.BurnAfterReading | backend/main.py:82-146 | a paste created with max_views = N > 0 returns its content to exactly the first N reads within its lifetime; afterwards the table is as before the create and the next read is a 404 |
| Lifecycle.DefaultsKeepPasteForever | backend/schemas.py:7-8 | a paste created from content alone never expires and is never burnt: every read returns the content and the row stays |
| Text.TrimEmptyIff | backend/main.py:58 | stripping leaves nothing iff every character is whitespace for the given language's notion of whitespace |
| Text.PythonIsSpace | backend/main.py:58 | the characters `str.strip()` removes: those for which Python's `str.isspace()` holds |
| Text.JsIsWhiteSpace | frontend/script.js:62 | the characters `String.prototype.trim` removes: ECMAScript WhiteSpace and LineTerminator |
| Text.WhitespaceSetsDiffer | frontend/script.js:62 | the two whitespace sets differ exactly on U+001C..U+001F and U+0085 (Python only) and U+FEFF (JavaScript only) |
| Text.PythonStrip | backend/main.py:58 | the stripped text is no longer than the input, is empty iff the input is all Python whitespace, and otherwise starts and ends outside it |
| Text.JsTrim | frontend/script.js:62 | the trimmed text is no longer than the input, is empty iff the input is all JavaScript whitespace, and otherwise starts and ends outside it |
| Text.CutAtChar | frontend/script.js:175 | `split('#')[0]` is the prefix of the text up to its first `#`, or the whole text when it has none |
| Text.SplitSecond | frontend/script.js:175 | `split(sep)[1]` is undefined iff sep does not occur; otherwise the piece contains no further sep |
| Text.SplitSecondAt | frontend/script.js:175 | when sep first occurs at k, `split(sep)[1]` is the text after it up to the next occurrence |
| Text.SplitLast | frontend/view.js:38 | `split(sep).pop()` is a suffix containing no sep, preceded by sep whenever it is not the whole string |
| Text.SplitFirst | frontend/script.js:175 | `split(sep)[0]` is a prefix containing no sep, followed by sep whenever it is not the whole string |
| Text.ReplaceFirst | frontend/script.js:47 | a string pattern that does not occur leaves the text alone; otherwise one occurrence is replaced |
| Text.NatToDecimal | frontend/view.js:174 | the rendering is a non-empty digit string without a leading zero (except for 0) whose value is the number |
| Js.Or | frontend/script.js:175 | JavaScript's logical or is truthy iff either operand is, returns one of the two, and returns the first when it is truthy |
| Js.Truthy | frontend/view.js:186 | a value is falsy exactly when it is undefined, null, false, 0 or the empty string |
| Js.Render | frontend/view.js:187 | a template literal shows a string as itself and an integer as its decimal numeral, with a leading `-` when negative |
| Js.OrString | frontend/view.js:38 | a present non-empty string wins; null or `''` falls back to the default |
| Script.ExtractShareId | frontend/script.js:174-175 | the id is the piece after the first `id=` when that piece is non-empty, otherwise the last `/` segment of the trimmed input, cut at its first `#` (the whole piece when it holds no `#`) |
| Script.OnViewButton | frontend/script.js:173-177 | a toast iff nothing was extracted; otherwise a fetch of the extracted id |
| Script.ExtractFromLink | frontend/script.js:174-176 | a link that does not start with JavaScript whitespace, ending in `id=` plus an alphanumeric id, with no `=` before the marker, is read as that id |
| Script.ExtractBareId | frontend/script.js:174-176 | a bare alphanumeric id is read back unchanged |
| Script.ExtractFromServerShareUrl | backend/main.py:94-95 | the share URL the server returns, pasted into the view box, fetches the generated id |
| Script.HandleUrl | frontend/script.js:187-198 | the view opens iff the hash starts with `#view?id=`, with the piece after `id=`; an empty hash selects the create tab; any other hash switches iff its tab element exists |
| Script.SwitchTab | frontend/script.js:45-49 | exactly the target content and the matching nav tab become active, and the hash becomes the tab's name |
| Script.TabName | frontend/script.js:47 | a target without `-tab` is its own name; otherwise the name is the target with one four-character `-tab` removed |
| Script.TabNameOfTab | frontend/script.js:47-48 | a dash-free name plus `-tab` maps back to the name |
| Script.RoutingSettles | frontend/script.js:193-195 | for a plain tab hash, routing selects that tab and switchTab writes back the same hash |
| Script.ShareLinkSettlesOnViewTab | frontend/script.js:189-192 | a share link opens the id, switchTab rewrites the hash to `#view`, and the follow-up routing only re-selects the view tab |
| Script.DisplayViewResult | frontend/script.js:51-58 | afterwards exactly the requested section is visible if the page has it, and none otherwise |
| Script.SubmitCreate | frontend/script.js:62-77 | refused with `toast_no_content` iff the trimmed content is empty; otherwise the untrimmed content, both limits, and the password or null when empty are sent |
| Script.PasswordReportedIffFilled | frontend/script.js:76 | the server reports has_password iff the form's password field was filled |
| Script.SameWhitespaceSameVerdict | frontend/script.js:62-66 | when every character is whitespace in both languages or in neither, the browser's blank check and the server's agree |
| Script.TrimAndStripDisagree | frontend/script.js:62-66 | U+001C passes the browser and gets 400 from the server; U+FEFF is refused by the browser though the server accepts it |
| Script.OnlyServerStrips | frontend/script.js:62-66 | any character Python strips but `trim()` keeps is sent by the browser and refused by the server with 400 and the empty-content detail |
| Script.OnlyBrowserTrims | frontend/script.js:62-66 | any character `trim()` removes but Python keeps is refused by the browser with the empty-content toast, though the server would not count it blank |
| Script.PasteUrl | frontend/script.js:92 | the link starts with the origin and ends with `#view?id=` plus the id; without `index.html` in the path it is exactly origin, path and that suffix, and with it the path is ten characters shorter; without `#` in the origin or path its fragment is `#view?id=` plus the id |
| Script.PasteUrlRoundTrip | frontend/script.js:92 | the created link routes to the view of the id, and pasting it into the view box fetches the same id |
| Script.OnCreateReply | frontend/script.js:89-108 | a link iff the reply is ok, built from the returned id; a non-empty error detail is shown through getTranslation, and a missing or empty one falls back to the translated `toast_create_failed` text, passed through getTranslation again |
| Script.CreateErrorsShownVerbatim | frontend/script.js:107-108 | the server's four create errors reach the toast verbatim in both languages |
| Script.CreatedLinkOpensPaste | frontend/script.js:89-92 | after a successful create, the shown link routes to the new id and reads back as it |
| Script.OnGetReply | frontend/script.js:123-136 | the password prompt iff a failure mentions 密码; content iff ok; other failures show the detail, or the translated fallback when it is empty |
| Script.ViewPasteShowsReplySection | frontend/script.js:118-136 | exactly one section ends visible; content iff the reply was ok; the password section only for failures; never the loading section |
| Script.FailureWithoutPasswordShowsDetail | frontend/script.js:124-127 | a failure whose detail does not mention a password shows the detail |
| Script.ServerRepliesOnViewTab | frontend/script.js:123-131 | against this server a read shows the content, and every 404 shows the server's message and never a password prompt |
| ViewPage.PageId | frontend/view.js:37-38 | a non-empty `id` query parameter wins; otherwise the id is the last path segment: a `/`-free suffix of the path that is either the whole path or preceded by `/` |
| ViewPage.OnPageLoad | frontend/view.js:37-43 | the invalid-link error iff the id is empty or `view.html`; otherwise that id is loaded |
| ViewPage.LastSegment | frontend/view.js:38 | the last segment of `dir/id` is `id` |
| ViewPage.PathOrQueryIdLoads | frontend/view.js:37-43 | a path ending in an id loads it, and a query id wins over the path |
| ViewPage.PageWithoutIdIsInvalid | frontend/view.js:40-42 | the page itself, or a path ending in `/`, is an invalid link |
| ViewPage.ExpiryOf | frontend/view.js:164-183 | no expires_at means never; at most 0 ms left means expired; otherwise the floored hours and minutes left, with minutes alone under an hour |
| ViewPage.ExpireText | frontend/view.js:164-183 | every lifetime text starts with ⏰; no expiry gives `⏰ 永不过期` and an elapsed one `⏰ 已过期` |
| ViewPage.ExpireTextShowsNumerals | frontend/view.js:170-177 | a remaining lifetime ends in `分钟后过期`; the digits before it read back as the minutes, and with hours left the digits before the first `小时` read back as the hours |
| ViewPage.ExpireTextMentionsHoursIff | frontend/view.js:173-177 | the text mentions 小时 iff at least an hour is left |
| ViewPage.ViewsText | frontend/view.js:186-190 | the unlimited text iff max_views is falsy; otherwise a count text ending in ` 次查看` |
| ViewPage.ViewsTextShowsCounts | frontend/view.js:186-187 | with a positive limit the text is the view count and the limit as decimal numerals, joined by `/`, between `👁️ ` and ` 次查看` |
| ViewPage.HideAllSections | frontend/view.js:209-214 | no section is displayed and nothing else changes |
| ViewPage.ShowLoading | frontend/view.js:125-128 | only the loading section is displayed and nothing else changes |
| ViewPage.ShowPasswordSection | frontend/view.js:131-137 | only the password section is displayed, its field is cleared and its error hidden; nothing else changes |
| ViewPage.ShowError | frontend/view.js:194-198 | only the error section is displayed, with the message; nothing else changes |
| ViewPage.TextContent | frontend/view.js:145 | a string is shown as is; null and undefined clear the text |
| ViewPage.ShowContent | frontend/view.js:140-159 | only the content section is displayed, with the content, lifetime and view texts; the burn warning shows iff will_destroy is truthy; the error text, the password field and its error line are unchanged |
| ViewPage.EveryHelperShowsOneSection | frontend/view.js:125-198 | whatever was shown before, each show helper leaves exactly one section displayed |
| ViewPage.LoadPaste | frontend/view.js:57-81 | the password section iff requires_password is truthy, otherwise the content; a refusal shows the detail or `获取内容失败`; a network error shows its message or the retry text |
| ViewPage.ServerRepliesOnViewPage | frontend/view.js:68-75 | against this server a read shows the content with the "never expires", "unlimited views" and no-warning defaults, and a failure shows the server's message |
| Theme.IndexOf | frontend/theme.js:23 | the index of a known theme, and none exactly for an unknown name |
| Theme.Effective | frontend/theme.js:6-8 | `system` resolves to `dark` iff the OS prefers dark, otherwise `light`; every other name is used as is |
| Theme.Apply | frontend/theme.js:4-20 | the body gets the effective theme; the icon shown is the selected theme's iff the page has one |
| Theme.SetTheme | frontend/theme.js:22-28 | a known name selects its slot and an unknown one the `system` slot; the raw name is stored and applied |
| Theme.KnownThemeIsConsistent | frontend/theme.js:22-28 | for a known name the body is light or dark as the selected slot resolves, and that slot's icon is shown |
| Theme.UnknownThemeKeepsRawName | frontend/theme.js:23-27 | an unknown name selects `system`, yet is stored and written to the body with no icon shown |
| Theme.CycleTheme | frontend/theme.js:30-34 | the slot advances by one modulo three, and that theme is stored and applied |
| Theme.CycleOrder | frontend/theme.js:1 | the toggle runs light, dark, system and back to light |
| Theme.ThreeCyclesRestore | frontend/theme.js:30-34 | three presses after choosing a theme restore the page exactly |
| Theme.InitTheme | frontend/theme.js:36-38 | a saved known theme is selected; with nothing saved the page follows the OS preference under `system` |
| Theme.ReloadRestoresTheme | frontend/theme.js:26-38 | initialising from what setTheme saved selects the same slot and paints the same body |
| Theme.OnSystemChange | frontend/theme.js:41-45 | an OS preference change repaints the body only while `system` is selected |
| Theme.SystemChangeFollowsOnlySystem | frontend/theme.js:41-45 | under `system` the body follows the new preference; under an explicit choice nothing changes |
| I18n.TablesAgree | frontend/i18n.js:1-132 | both tables define the same keys, every entry non-empty |
| I18n.NotAKey | frontend/i18n.js:159-161 | a text that does not start with ASCII is no key, and getTranslation returns it unchanged in both languages |
| I18n.Normalize | frontend/i18n.js:137-141 | English exactly when the tag starts with `en`, Chinese otherwise |
| I18n.NormalizeCode | frontend/i18n.js:137-144 | the code a language is saved under selects that language again |
| I18n.UpdateElement | frontend/i18n.js:146-156 | an element with a truthy entry gets it as placeholder if it has one, else as text; other elements are untouched |
| I18n.UpdateElements | frontend/i18n.js:146-156 | every `[data-i18n]` element is updated in place, in document order, none added or dropped |
| I18n.SetLanguage | frontend/i18n.js:136-157 | en iff the tag starts with `en`; `<html lang>` and the saved entry are that code; every element is updated in order |
| I18n.SwitchForgetsPreviousLanguage | frontend/i18n.js:146-156 | switching twice leaves the elements as a single switch to the second language would |
| I18n.TranslatedInBoth | frontend/i18n.js:2-131 | a key is translated in one language iff in the other |
| I18n.GetTranslation | frontend/i18n.js:159-161 | a truthy entry is returned, non-empty; otherwise the key itself |
| I18n.TranslationFallsBackToKey | frontend/i18n.js:159-161 | a missing key comes back unchanged in both languages; a known key is in both tables and gives each table's entry |
| I18n.InitialLanguage | frontend/i18n.js:163-168 | the saved language, else the browser's, else Chinese; empty strings count as absent |
| I18n.SavedLanguageWinsOnReload | frontend/i18n.js:143-167 | initialising from what setLanguage saved selects the same language, whatever the browser says |
| I18n.ToggleTwiceRestores | frontend/script.js:169 | each press of the language button changes the language, and two presses restore it |
| I18n.ToggleTarget | frontend/script.js:169 | the language button always asks for `en` or `zh`, never the current one of those, and `zh` from any other `lang` |

## Left out

- `backend/database.py` and `backend/init_db.py` (engine, sessions, schema creation): infrastructure around the table.
- The FastAPI wiring at `backend/main.py:1-49` and `154-191` (CORS, static files, health and root routes): routing glue.
- The integer primary key `id`: nothing reads it.
- The generic `except Exception` of `create_paste` (500 `创建分享失败: …` with rollback, `backend/main.py:105-109`): it fires on database errors and on encoding errors, such as a lone surrogate in the content failing `text.encode('utf-8')` at `backend/utils.py:42`; neither is modelled, because the store is a map and text is a sequence of characters.
- The 500 of `get_paste` is modelled for decryption failures only. Other exceptions come from the database, and from datetime overflow when `created_at + timedelta(hours=expire_hours)` passes the year 9999 (from roughly 7·10⁷ hours on); neither is modelled.
- Fernet internals, key loading (`backend/utils.py:1-30`) and the UTF-8 encoding and decoding around the cipher (`backend/utils.py:42-43`, `56-57`): the cipher is a parameter, and text is a sequence of characters.
- FastAPI's 422 replies for ill-typed bodies: request fields are already typed in the model.
- Concurrency: two simultaneous reads of the last view are not modelled, because each request is one atomic transition of the store.
- `viewWithPassword` (`frontend/script.js:139-165`) and `handlePasswordSubmit` (`frontend/view.js:84-122`): they post to `/api/get/{id}`, which the backend does not serve. Only the password prompt that leads to them is modelled.
- DOM rendering, `fetch`, timers, clipboard, keyboard shortcuts, visibility, unload and online/offline handlers (`frontend/view.js:216-342`), and `showToast` rendering: side effects of the browser. The toast's text is modelled as getTranslation of its key.
- `parseInt` on the form selects: the selects only offer integers, so the parsed values are inputs.
- `URLSearchParams` percent-decoding and `Date` parsing: the query id and the milliseconds left until `expires_at` are inputs.
- Keys inherited from `Object.prototype` (such as `toString`) in the translation lookup: the tables are modelled as plain maps.
- The page markup: which tab ids, sections and theme icons exist are parameters.
- Text.ReplaceFirst: its own contract gives only the unchanged case and the length. What `replace('-tab', '')` yields on tab ids is stated by `Script.TabNameOfTab`, and which characters it can introduce by `Text.ReplaceFirstKeepsAbsentChar`.
- Lifecycle.ReadAll: its contract gives only the number of replies. What the replies are is stated by `Lifecycle.LimitedReads` and `Lifecycle.UnlimitedReads`.
- Script.TabName: the contract gives the length after the removal, not which `-tab` is removed; `Script.TabNameOfTab` pins the value for a dash-free tab name, the only kind the page has.

=== FILE: api.dfy ===
/**
 backend/main.py: the two routes that make up a paste's life, `create_paste`
 (POST /api/create) and `get_paste` (GET /api/get/{unique_id}), as pure
 transitions of the store. The clock, the id randomness, the cipher and the
 `BASE_URL` environment variable are parameters.
 */
module Api {
  import opened Wrappers
  import opened Text
  import opened Utils
  import opened Models
  import opened Schemas

  /** Candidate ids tried before giving up. */
  const MaxAttempts: nat := 10

  /** `timedelta(hours=1)` on the microsecond clock. */
  const MicrosPerHour: int := 3_600_000_000

  /** `BASE_URL` when the environment does not set it. */
  const DefaultBaseUrl: string := "http://localhost:8000"

  /** Fixed text joining the base URL and the id in a share URL. */
  const ShareUrlMiddle: string := "/#view?id="

  const ContentEmptyDetail: string := "内容不能为空"
  const ExpireNegativeDetail: string := "过期时间不能为负数"
  const ViewsNegativeDetail: string := "查看次数不能为负数"
  const NoUniqueIdDetail: string := "无法生成唯一ID"
  const NotFoundDetail: string := "链接不存在或已失效"
  const ExpiredDetail: string := "链接已过期"
  const LimitReachedDetail: string := "链接已达到查看次数限制"
  const GetFailedPrefix: string := "获取内容失败: "

  /** An `HTTPException`: status code and `detail`. */
  datatype HttpError = HttpError(status: int, detail: string)

  /** The store after a request, and the response or the error raised. */
  datatype Step<T> = Step(store: Store, result: Result<T, HttpError>)

  /** The randomness behind `secrets.choice`: `pick(k, i)` is the alphabet
      position drawn for character `i` of candidate `k`. */
  type Picker = (nat, nat) -> nat

  /** The `k`-th call of `generate_unique_id()` in the retry loop. */
  function Candidate(pick: Picker, k: nat): (id: string)
    ensures |id| == DefaultIdLength
    ensures forall i :: 0 <= i < |id| ==> IsIdChar(id[i])
  {
    GenerateUniqueId(DefaultIdLength, i => pick(k, i))
  }

  /** The retry loop from attempt `k` on: the first attempt whose candidate is
      not already a key of the store, or `None` when the remaining attempts
      all collide. */
  function FirstFreeAttempt(store: Store, pick: Picker, k: nat): (r: Option<nat>)
    requires k <= MaxAttempts
    ensures r.Some? ==> k <= r.value < MaxAttempts && Candidate(pick, r.value) !in store
    ensures r.Some? ==> forall j :: k <= j < r.value ==> Candidate(pick, j) in store
    ensures r.None? ==> forall j :: k <= j < MaxAttempts ==> Candidate(pick, j) in store
    decreases MaxAttempts - k
  {
    if k == MaxAttempts then None
    else if Candidate(pick, k) !in store then Some(k)
    else FirstFreeAttempt(store, pick, k + 1)
  }

  /** `not request.content.strip()`. */
  function IsBlank(content: string): (b: bool)
    ensures b <==> forall i :: 0 <= i < |content| ==> PythonIsSpace(content[i])
  {
    PythonStrip(content) == []
  }

  /** The request passes the three checks that precede id generation. */
  predicate AcceptableRequest(req: CreateRequest) {
    !IsBlank(req.content) && req.expireHours >= 0 && req.maxViews >= 0
  }

  /** `f"{base_url}/#view?id={unique_id}"`, where `baseUrl` is the
      `BASE_URL` environment variable if set. */
  function ShareUrl(baseUrl: Option<string>, id: string): (url: string)
    ensures |url| >= |ShareUrlMiddle| + |id|
    ensures baseUrl.Some? ==> baseUrl.value <= url
    ensures baseUrl.None? ==> DefaultBaseUrl <= url
    ensures url[|url| - |id| - |ShareUrlMiddle|..] == ShareUrlMiddle + id
    ensures baseUrl.Some? ==> |url| == |baseUrl.value| + |ShareUrlMiddle| + |id|
    ensures baseUrl.None? ==> |url| == |DefaultBaseUrl| + |ShareUrlMiddle| + |id|
  {
    (match baseUrl case Some(b) => b case None => DefaultBaseUrl) + ShareUrlMiddle + id
  }

  /** `create_paste`: validate, then insert. `now` is the clock reading that
      `created_at` takes on insert. */
  function Create(store: Store, req: CreateRequest, pick: Picker, now: int, cipher: Cipher,
                  baseUrl: Option<string>): (r: Step<CreateResponse>)
    ensures r.result.Failure? ==> r.store == store
    ensures r.result.Success? ==> r.store.Keys == store.Keys + {r.result.value.uniqueId}
  {
    if IsBlank(req.content) then Step(store, Failure(HttpError(400, ContentEmptyDetail)))
    else if req.expireHours < 0 then Step(store, Failure(HttpError(400, ExpireNegativeDetail)))
    else if req.maxViews < 0 then Step(store, Failure(HttpError(400, ViewsNegativeDetail)))
    else Insert(store, req, pick, now, cipher, baseUrl)
  }

  /** The part of `create_paste` after validation: find a free id, encrypt,
      insert a row with no views, respond. */
  function Insert(store: Store, req: CreateRequest, pick: Picker, now: int, cipher: Cipher,
                  baseUrl: Option<string>): (r: Step<CreateResponse>)
    ensures r.result.Failure? ==> r == Step(store, Failure(HttpError(500, NoUniqueIdDetail)))
    ensures r.result.Success? ==> r.store.Keys == store.Keys + {r.result.value.uniqueId}
    ensures r.result.Success? ==>
      var id := r.result.value.uniqueId;
      && id !in store
      && |id| == DefaultIdLength
      && (forall i :: 0 <= i < |id| ==> IsIdChar(id[i]))
      && r.store == store[id := Paste(id, EncryptText(cipher, req.content), now, req.expireHours,
                                      req.maxViews, 0, None)]
      && r.result.value == CreateResponse(ShareUrl(baseUrl, id), id, req.expireHours, req.maxViews,
                                          Truthy(req.password))
  {
    match FirstFreeAttempt(store, pick, 0)
    case None => Step(store, Failure(HttpError(500, NoUniqueIdDetail)))
    case Some(k) =>
      var id := Candidate(pick, k);
      var row := Paste(id, EncryptText(cipher, req.content), now, req.expireHours, req.maxViews, 0, None);
      var response := CreateResponse(ShareUrl(baseUrl, id), id, req.expireHours, req.maxViews,
                                     Truthy(req.password));
      Step(store[id := row], Success(response))
  }

  /** The row's lifetime has passed: `expire_hours > 0` and the clock is
      strictly past `created_at + expire_hours` hours. */
  function Expired(p: Paste, now: int): (b: bool)
    ensures p.expireHours <= 0 ==> !b
    ensures p.expireHours > 0 ==> (b <==> now - p.createdAt > p.expireHours * MicrosPerHour)
  {
    p.expireHours > 0 && now > p.createdAt + p.expireHours * MicrosPerHour
  }

  /** The row has a view limit and has used it up. */
  function LimitReached(p: Paste): (b: bool)
    ensures p.maxViews == 0 ==> !b
    ensures WellFormed(p) ==> !b
    ensures p.maxViews > 0 ==> (b <==> p.maxViews - p.currentViews <= 0)
  {
    p.maxViews > 0 && p.currentViews >= p.maxViews
  }

  /** `get_paste`: look up, drop if expired or used up, count the view
      (deleting the row on its last view), commit, then decrypt. */
  function Get(store: Store, id: string, now: int, cipher: Cipher): (r: Step<ViewResponse>)
    ensures r.store.Keys <= store.Keys
    ensures forall other :: other != id && other in store ==> other in r.store && r.store[other] == store[other]
    ensures r.result.Success? ==> id in store
  {
    if id !in store then Step(store, Failure(HttpError(404, NotFoundDetail)))
    else
      var p := store[id];
      if Expired(p, now) then Step(store - {id}, Failure(HttpError(404, ExpiredDetail)))
      else if LimitReached(p) then Step(store - {id}, Failure(HttpError(404, LimitReachedDetail)))
      else
        var viewed := p.(currentViews := p.currentViews + 1);
        var committed := if LimitReached(viewed) then store - {id} else store[id := viewed];
        match DecryptText(cipher, p.encryptedContent)
        case Success(content) => Step(committed, Success(ViewResponse(content)))
        case Failure(msg) => Step(committed, Failure(HttpError(500, GetFailedPrefix + msg)))
  }

  // ----- create -----

  /** The three validation errors are exactly the invalid requests; they
      leave the store alone and are decided before any id is drawn, so the
      outcome does not depend on the randomness. */
  lemma CreateRejectsInvalidRequest(store: Store, req: CreateRequest, pick: Picker, pick': Picker,
                                    now: int, cipher: Cipher, baseUrl: Option<string>)
    ensures var r := Create(store, req, pick, now, cipher, baseUrl);
      (r.result.Failure? && r.result.error.status == 400) <==> !AcceptableRequest(req)
    ensures var r := Create(store, req, pick, now, cipher, baseUrl);
      IsBlank(req.content) ==> r == Step(store, Failure(HttpError(400, ContentEmptyDetail)))
    ensures !AcceptableRequest(req) ==>
      Create(store, req, pick, now, cipher, baseUrl) == Create(store, req, pick', now, cipher, baseUrl)
  {
    if IsBlank(req.content) {
    } else if req.expireHours < 0 {
    } else if req.maxViews < 0 {
    } else {
      var r := Insert(store, req, pick, now, cipher, baseUrl);
      assert Create(store, req, pick, now, cipher, baseUrl) == r;
      assert r.result.Failure? ==> r.result.error.status == 500;
    }
  }

  /** An acceptable request takes the first of the ten candidates that is not
      in use; when all ten are in use it fails with 500 and stores nothing. */
  lemma CreateTakesFirstFreeCandidate(store: Store, req: CreateRequest, pick: Picker, now: int,
                                      cipher: Cipher, baseUrl: Option<string>)
    requires AcceptableRequest(req)
    ensures var r := Create(store, req, pick, now, cipher, baseUrl);
      r.result.Success? <==> exists k :: 0 <= k < MaxAttempts && Candidate(pick, k) !in store
    ensures var r := Create(store, req, pick, now, cipher, baseUrl);
      r.result.Success? ==>
        exists k :: 0 <= k < MaxAttempts && r.result.value.uniqueId == Candidate(pick, k)
          && (forall j :: 0 <= j < k ==> Candidate(pick, j) in store)
    ensures var r := Create(store, req, pick, now, cipher, baseUrl);
      r.result.Failure? ==> r == Step(store, Failure(HttpError(500, NoUniqueIdDetail)))
  {
    var r := Create(store, req, pick, now, cipher, baseUrl);
    assert r == Insert(store, req, pick, now, cipher, baseUrl);
    var a := FirstFreeAttempt(store, pick, 0);
    if a.Some? {
      assert r.result.value.uniqueId == Candidate(pick, a.value);
    }
  }

  /** A successful create inserts one new row under a fresh 8-character
      alphanumeric id that fits its column: the requested limits, zero views,
      no password hash, `created_at` = now, and content that decrypts back to
      the request's. The response echoes the limits, reports whether a
      password was given (which is then dropped), and links to the id. */
  lemma CreateStoresFreshRecord(store: Store, req: CreateRequest, pick: Picker, now: int,
                                cipher: Cipher, baseUrl: Option<string>)
    requires RoundTrips(cipher)
    ensures var r := Create(store, req, pick, now, cipher, baseUrl);
      r.result.Success? ==>
        var resp := r.result.value;
        var id := resp.uniqueId;
        && id !in store
        && |id| == DefaultIdLength <= UniqueIdWidth
        && (forall i :: 0 <= i < |id| ==> IsIdChar(id[i]))
        && id in r.store
        && r.store - {id} == store
        && r.store[id].uniqueId == id
        && r.store[id].createdAt == now
        && r.store[id].expireHours == req.expireHours
        && r.store[id].maxViews == req.maxViews
        && r.store[id].currentViews == 0
        && r.store[id].passwordHash == None
        && DecryptText(cipher, r.store[id].encryptedContent) == Success(req.content)
        && resp.expireHours == req.expireHours
        && resp.maxViews == req.maxViews
        && (resp.hasPassword <==> req.password.Some? && req.password.value != [])
        && resp.shareUrl == ShareUrl(baseUrl, id)
  {
    var r := Create(store, req, pick, now, cipher, baseUrl);
    if r.result.Success? {
      var id, row := CreatedRow(store, req, pick, now, cipher, baseUrl);
      assert DecryptText(cipher, row.encryptedContent) == Success(req.content);
      InsertedRowRemoves(store, id, row);
    }
  }

  /** The id and row a successful create adds, read off `Insert`. */
  lemma CreatedRow(store: Store, req: CreateRequest, pick: Picker, now: int, cipher: Cipher,
                   baseUrl: Option<string>)
    returns (id: string, row: Paste)
    requires Create(store, req, pick, now, cipher, baseUrl).result.Success?
    ensures var r := Create(store, req, pick, now, cipher, baseUrl);
      && AcceptableRequest(req)
      && id == r.result.value.uniqueId
      && id !in store && |id| == DefaultIdLength
      && (forall i :: 0 <= i < |id| ==> IsIdChar(id[i]))
      && row == Paste(id, EncryptText(cipher, req.content), now, req.expireHours, req.maxViews, 0, None)
      && r.store == store[id := row]
      && r.result.value == CreateResponse(ShareUrl(baseUrl, id), id, req.expireHours, req.maxViews,
                                          Truthy(req.password))
  {
    var r := Create(store, req, pick, now, cipher, baseUrl);
    assert r == Insert(store, req, pick, now, cipher, baseUrl);
    id := r.result.value.uniqueId;
    row := Paste(id, EncryptText(cipher, req.content), now, req.expireHours, req.maxViews, 0, None);
  }

  /** Removing a row just inserted under a fresh id gives the table back. */
  lemma InsertedRowRemoves(store: Store, id: string, row: Paste)
    requires id !in store
    ensures store[id := row] - {id} == store
  {
    assert (store[id := row] - {id}).Keys == store.Keys;
  }

  /** Filing a well-formed row under its own id keeps the table valid. */
  lemma FilingKeepsValid(store: Store, id: string, row: Paste)
    requires Valid(store) && row.uniqueId == id && WellFormed(row)
    ensures Valid(store[id := row])
  {
    var m := store[id := row];
    forall k | k in m
      ensures m[k].uniqueId == k && WellFormed(m[k])
    {
      if k != id {
        assert m[k] == store[k];
      }
    }
  }

  /** Creating keeps every row filed under its id and well formed. */
  lemma CreatePreservesValid(store: Store, req: CreateRequest, pick: Picker, now: int,
                             cipher: Cipher, baseUrl: Option<string>)
    requires Valid(store)
    ensures Valid(Create(store, req, pick, now, cipher, baseUrl).store)
  {
    var r := Create(store, req, pick, now, cipher, baseUrl);
    if r.result.Success? {
      var id, row := CreatedRow(store, req, pick, now, cipher, baseUrl);
      assert WellFormed(row);
      FilingKeepsValid(store, id, row);
    }
  }

  // ----- get -----

  /** An unknown id is a 404 and changes nothing. */
  lemma GetUnknownId(store: Store, id: string, now: int, cipher: Cipher)
    requires id !in store
    ensures Get(store, id, now, cipher) == Step(store, Failure(HttpError(404, NotFoundDetail)))
  {
  }

  /** Expiry is strict and only applies to rows with a positive lifetime: a
      row with `expire_hours = h > 0` is readable up to and including the
      instant `created_at + h` hours and is deleted with a 404 on any later
      read; a row with `expire_hours = 0` is never refused for its age. */
  lemma GetExpiryIsStrict(store: Store, id: string, now: int, cipher: Cipher)
    requires id in store
    ensures var p := store[id];
      var r := Get(store, id, now, cipher);
      p.expireHours > 0 ==>
        ((r == Step(store - {id}, Failure(HttpError(404, ExpiredDetail))))
         <==> now > p.createdAt + p.expireHours * MicrosPerHour)
    ensures var p := store[id];
      p.expireHours == 0 ==> Get(store, id, now, cipher).result != Failure(HttpError(404, ExpiredDetail))
  {
  }

  /** A live row that has used up its view limit is deleted and refused
      with 404 `链接已达到查看次数限制`. */
  lemma GetRefusesUsedUpRow(store: Store, id: string, now: int, cipher: Cipher)
    requires id in store && !Expired(store[id], now)
    requires store[id].maxViews > 0 && store[id].currentViews >= store[id].maxViews
    ensures Get(store, id, now, cipher) == Step(store - {id}, Failure(HttpError(404, LimitReachedDetail)))
  {
  }

  /** In a valid store the view-limit refusal cannot happen: rows are deleted
      on their last permitted view, so no stored row is ever used up. */
  lemma GetNeverRefusesForLimitOnValidStore(store: Store, id: string, now: int, cipher: Cipher)
    requires Valid(store)
    ensures Get(store, id, now, cipher).result != Failure(HttpError(404, LimitReachedDetail))
  {
  }

  /** A read of a live row counts exactly one view: the row is deleted iff it
      has a limit and this view reaches it, and is otherwise kept with its
      count one higher; nothing else changes. */
  lemma GetCountsOneView(store: Store, id: string, now: int, cipher: Cipher)
    requires Valid(store)
    requires id in store && !Expired(store[id], now)
    ensures var p := store[id];
      var r := Get(store, id, now, cipher);
      && (id !in r.store <==> p.maxViews > 0 && p.currentViews + 1 == p.maxViews)
      && (id in r.store ==> r.store[id] == p.(currentViews := p.currentViews + 1))
      && r.store - {id} == store - {id}
  {
  }

  /** The view is committed before decryption: the store after a read does
      not depend on the cipher at all, so a token that fails to decrypt still
      uses up the view. The reply is the decrypted content and nothing else,
      or a 500 carrying the cipher's error. */
  lemma GetCommitsBeforeDecrypt(store: Store, id: string, now: int, cipher: Cipher, cipher': Cipher)
    ensures Get(store, id, now, cipher).store == Get(store, id, now, cipher').store
    ensures var r := Get(store, id, now, cipher);
      r.result.Success? ==> DecryptText(cipher, store[id].encryptedContent) == Success(r.result.value.content)
    ensures var r := Get(store, id, now, cipher);
      id in store && !Expired(store[id], now) && !LimitReached(store[id])
        && DecryptText(cipher, store[id].encryptedContent).Failure? ==>
        r.result == Failure(HttpError(500, GetFailedPrefix
          + DecryptText(cipher, store[id].encryptedContent).error))
  {
  }

  /** A read fails in exactly two ways: a 404 for a missing, expired or
      used-up row, or a 500 whose message starts with the retrieval prefix. */
  lemma GetFailureKinds(store: Store, id: string, now: int, cipher: Cipher)
    ensures var r := Get(store, id, now, cipher).result;
      r.Failure? ==>
        || (r.error.status == 404 && r.error.detail in {NotFoundDetail, ExpiredDetail, LimitReachedDetail})
        || (r.error.status == 500 && GetFailedPrefix <= r.error.detail)
  {
  }

  /** A row left at its column defaults never expires and is never used up,
      however often it is read, and is well formed once its id fits. */
  lemma DefaultRowLivesForever(id: string, token: string, createdAt: int, now: int, views: nat)
    ensures |id| <= UniqueIdWidth ==> WellFormed(NewPaste(id, token, createdAt))
    ensures !Expired(NewPaste(id, token, createdAt), now)
    ensures !LimitReached(NewPaste(id, token, createdAt).(currentViews := views))
  {
  }

  /** Reading keeps every row filed under its id and well formed. */
  lemma GetPreservesValid(store: Store, id: string, now: int, cipher: Cipher)
    requires Valid(store)
    ensures Valid(Get(store, id, now, cipher).store)
  {
  }
}

=== FILE: i18n.dfy ===
/**
 frontend/i18n.js: the two translation tables, the current-language switch,
 key lookup with fallback, and the choice of the initial language.
 */
module I18n {
  import opened Wrappers
  import opened Text
  import Js

  /** The languages with a table; any other request falls back to Chinese. */
  datatype Lang = En | Zh

  /** English header, navigation and create-tab entries. */
  const EnCreate: map<string, string> := map[
    "createTab" := "Create",
    "viewTab" := "View",
    "aboutTab" := "About",
    "createHeader" := "Share Content",
    "createPlaceholder" := "Paste any text or code here...",
    "expireLabel" := "Expiration Time",
    "expire_1h" := "1 Hour",
    "expire_6h" := "6 Hours",
    "expire_1d" := "1 Day",
    "expire_3d" := "3 Days",
    "expire_7d" := "1 Week",
    "expire_0" := "Never",
    "viewsLabel" := "Max Views",
    "views_1" := "1 View (Burn after read)",
    "views_3" := "3 Views",
    "views_10" := "10 Views",
    "views_0" := "Unlimited",
    "passwordLabel" := "Optional Password",
    "passwordPlaceholder" := "Leave blank for no password",
    "createButton" := "Create Share Link",
    "creatingButton" := "Creating...",
    "resultHeader" := "Share Link Created",
    "copyButton" := "Copy"
  ]

  /** English view-tab, about-tab and toast entries. */
  const EnView: map<string, string> := map[
    "viewHeader" := "Share Link or ID",
    "viewPlaceholder" := "Paste share link or enter ID",
    "viewButton" := "View Content",
    "encryptedHeader" := "Content Encrypted",
    "encryptedMessage" := "A password is required to view this content.",
    "decryptButton" := "Decrypt",
    "decryptingButton" := "Decrypting...",
    "contentHeader" := "Shared Content",
    "copyContentButton" := "Copy Content",
    "newShareButton" := "Create New Share",
    "errorHeader" := "Unable to Access Content",
    "homeButton" := "Back to Home",
    "aboutHeader" := "About QuickShare",
    "aboutP1" := "A minimal, secure, and privacy-focused tool for sharing text.",
    "feature1" := "Stored encrypted to protect privacy",
    "feature2" := "Burn-after-read by views or time",
    "feature3" := "Lightweight and fast, no unnecessary tracking or ads",
    "feature4" := "Simple interface, focused on the core sharing experience",
    "techStack" := "Tech Stack",
    "techStackContent" := "Backend: Python (FastAPI) | Frontend: Vanilla JavaScript | Database: PostgreSQL / SQLite",
    "toast_copied" := "Copied to clipboard",
    "toast_link_copied" := "Link copied to clipboard",
    "toast_no_content" := "Content cannot be empty",
    "toast_invalid_link" := "Invalid link or ID",
    "toast_no_password" := "Password is required",
    "toast_create_failed" := "Failed to create share",
    "toast_view_failed" := "Failed to retrieve content"
  ]

  /** Chinese header, navigation and create-tab entries. */
  const ZhCreate: map<string, string> := map[
    "createTab" := "创建",
    "viewTab" := "查看",
    "aboutTab" := "关于",
    "createHeader" := "分享内容",
    "createPlaceholder" := "在此粘贴任何文本或代码...",
    "expireLabel" := "过期时间",
    "expire_1h" := "1 小时",
    "expire_6h" := "6 小时",
    "expire_1d" := "1 天",
    "expire_3d" := "3 天",
    "expire_7d" := "1 周",
    "expire_0" := "永不",
    "viewsLabel" := "最大查看次数",
    "views_1" := "1 次 (阅后即焚)",
    "views_3" := "3 次",
    "views_10" := "10 次",
    "views_0" := "不限",
    "passwordLabel" := "可选密码",
    "passwordPlaceholder" := "留空则无需密码",
    "createButton" := "创建分享链接",
    "creatingButton" := "创建中...",
    "resultHeader" := "分享链接已创建",
    "copyButton" := "复制"
  ]

  /** Chinese view-tab, about-tab and toast entries. */
  const ZhView: map<string, string> := map[
    "viewHeader" := "分享链接或 ID",
    "viewPlaceholder" := "粘贴分享链接或输入ID",
    "viewButton" := "查看内容",
    "encryptedHeader" := "内容已加密",
    "encryptedMessage" := "需要密码才能查看此分享。",
    "decryptButton" := "解密",
    "decryptingButton" := "解密中...",
    "contentHeader" := "分享内容",
    "copyContentButton" := "复制内容",
    "newShareButton" := "创建新分享",
    "errorHeader" := "无法访问内容",
    "homeButton" := "返回首页",
    "aboutHeader" := "关于 QuickShare",
    "aboutP1" := "一个极简、安全、注重隐私的文本分享工具。",
    "feature1" := "存储加密，保障内容隐私",
    "feature2" := "阅后即焚，支持按次数或时间销毁",
    "feature3" := "轻量快速，无任何不必要的追踪或广告",
    "feature4" := "界面简洁，专注于核心分享体验",
    "techStack" := "技术栈",
    "techStackContent" := "后端: Python (FastAPI) | 前端: Vanilla JavaScript | 数据库: PostgreSQL / SQLite",
    "toast_copied" := "已复制到剪贴板",
    "toast_link_copied" := "链接已复制到剪贴板",
    "toast_no_content" := "分享内容不能为空",
    "toast_invalid_link" := "无效的链接或ID",
    "toast_no_password" := "请输入密码",
    "toast_create_failed" := "创建失败",
    "toast_view_failed" := "获取内容失败"
  ]

  /** `translations.en`. */
  const EnTable: map<string, string> := EnCreate + EnView

  /** `translations.zh`. */
  const ZhTable: map<string, string> := ZhCreate + ZhView

  function Table(l: Lang): map<string, string> {
    match l
    case En => EnTable
    case Zh => ZhTable
  }

  /** The code written to `<html lang>` and to `localStorage`. */
  function Code(l: Lang): string {
    match l
    case En => "en"
    case Zh => "zh"
  }

  lemma CreateEntriesAgree()
    ensures EnCreate.Keys == ZhCreate.Keys
    ensures forall k :: k in EnCreate ==> EnCreate[k] != [] && ZhCreate[k] != []
  {
  }

  lemma ViewEntriesAgree()
    ensures EnView.Keys == ZhView.Keys
    ensures forall k :: k in EnView ==> EnView[k] != [] && ZhView[k] != []
  {
  }

  lemma CreateKeysAreAscii()
    ensures forall k :: k in EnCreate ==> k != [] && k[0] < '\U{80}'
  {
  }

  lemma ViewKeysAreAscii()
    ensures forall k :: k in EnView ==> k != [] && k[0] < '\U{80}'
  {
  }

  /** Every key is an identifier in ASCII, so a text starting with any other
      character (a server message in Chinese, say) is no key in either table
      and `getTranslation` returns it unchanged. */
  lemma NotAKey(text: string)
    requires text != [] && text[0] >= '\U{80}'
    ensures text !in EnTable && text !in ZhTable
    ensures forall l :: GetTranslation(l, text) == text
  {
    CreateKeysAreAscii();
    ViewKeysAreAscii();
    assert text !in EnCreate && text !in EnView;
    SameKey(text);
  }

  /** A key is in one table exactly when it is in the other. */
  lemma SameKey(k: string)
    ensures k in EnTable <==> k in ZhTable
  {
    CreateEntriesAgree();
    ViewEntriesAgree();
    assert k in EnCreate <==> k in ZhCreate by {
      assert k in EnCreate.Keys <==> k in ZhCreate.Keys;
    }
    assert k in EnView <==> k in ZhView by {
      assert k in EnView.Keys <==> k in ZhView.Keys;
    }
  }

  /** Both tables define the same keys, every entry non-empty. */
  lemma TablesAgree()
    ensures EnTable.Keys == ZhTable.Keys
    ensures forall l: Lang, k :: k in Table(l) ==> Table(l)[k] != []
  {
    CreateEntriesAgree();
    ViewEntriesAgree();
    assert EnTable.Keys == EnCreate.Keys + EnView.Keys;
    assert ZhTable.Keys == ZhCreate.Keys + ZhView.Keys;
    forall l: Lang, k | k in Table(l)
      ensures Table(l)[k] != []
    {
      EntryNonEmpty(l, k);
    }
  }

  /** An entry of either table is non-empty. */
  lemma EntryNonEmpty(l: Lang, k: string)
    requires k in Table(l)
    ensures Table(l)[k] != []
  {
    CreateEntriesAgree();
    ViewEntriesAgree();
    if l == En {
      if k in EnView {
        assert EnTable[k] == EnView[k];
      } else {
        assert EnTable[k] == EnCreate[k];
      }
    } else {
      if k in ZhView {
        assert ZhTable[k] == ZhView[k];
      } else {
        assert k in ZhCreate.Keys;
        assert ZhTable[k] == ZhCreate[k];
      }
    }
  }

  /** The language `setLanguage(lang)` switches to: English exactly when the
      requested tag starts with `en`, Chinese for everything else. */
  function Normalize(lang: string): (l: Lang)
    ensures l == En <==> StartsWith(lang, "en")
  {
    if StartsWith(lang, "en") then En else Zh
  }

  /** The code a language is stored under normalises back to it. */
  lemma NormalizeCode(l: Lang)
    ensures Normalize(Code(l)) == l
  {
    if l == Zh {
      assert !StartsWith("zh", "en") by { assert "zh"[0] != "en"[0]; }
    }
  }

  /** An element carrying `data-i18n`. `hasPlaceholder` is whether the
      element has a `placeholder` property at all (inputs and text areas). */
  datatype Element = Element(key: string, hasPlaceholder: bool, placeholder: string, text: string)

  /** `translations[currentLanguage][key]` is truthy. */
  predicate Translates(l: Lang, key: string) {
    key in Table(l) && Table(l)[key] != []
  }

  /** The per-element rule of `setLanguage`. */
  function UpdateElement(l: Lang, e: Element): (r: Element)
    ensures r.key == e.key && r.hasPlaceholder == e.hasPlaceholder
    ensures !Translates(l, e.key) ==> r == e
    ensures Translates(l, e.key) && e.hasPlaceholder ==>
      r.placeholder == Table(l)[e.key] && r.text == e.text
    ensures Translates(l, e.key) && !e.hasPlaceholder ==>
      r.text == Table(l)[e.key] && r.placeholder == e.placeholder
  {
    if !Translates(l, e.key) then e
    else if e.hasPlaceholder then e.(placeholder := Table(l)[e.key])
    else e.(text := Table(l)[e.key])
  }

  /** `setLanguage`'s pass over every `[data-i18n]` element, in document order. */
  function UpdateElements(l: Lang, es: seq<Element>): (r: seq<Element>)
    ensures |r| == |es|
    ensures forall i :: 0 <= i < |es| ==> r[i] == UpdateElement(l, es[i])
  {
    seq(|es|, i requires 0 <= i < |es| => UpdateElement(l, es[i]))
  }

  /** The page state `setLanguage` writes: the current language, `<html
      lang>`, the `language` entry of `localStorage`, and the elements. */
  datatype Page = Page(current: Lang, htmlLang: string, saved: Option<string>, elements: seq<Element>)

  /** `setLanguage(lang)`. */
  function SetLanguage(page: Page, lang: string): (r: Page)
    ensures r.current == En <==> StartsWith(lang, "en")
    ensures r.htmlLang in {"en", "zh"} && r.htmlLang == Code(r.current)
    ensures r.saved == Some(r.htmlLang)
    ensures r.elements == UpdateElements(r.current, page.elements)
  {
    var l := Normalize(lang);
    Page(l, Code(l), Some(Code(l)), UpdateElements(l, page.elements))
  }

  /** Switching language overwrites every element the first language
      touched: the result is as if only the second switch had happened,
      because both tables cover the same keys with non-empty entries. */
  lemma SwitchForgetsPreviousLanguage(l1: Lang, l2: Lang, es: seq<Element>)
    ensures UpdateElements(l2, UpdateElements(l1, es)) == UpdateElements(l2, es)
  {
    var a := UpdateElements(l2, UpdateElements(l1, es));
    var b := UpdateElements(l2, es);
    forall i | 0 <= i < |es|
      ensures a[i] == b[i]
    {
      UpdateTwice(l1, l2, es[i]);
    }
  }

  /** One element updated in two languages ends as the second makes it. */
  lemma UpdateTwice(l1: Lang, l2: Lang, e: Element)
    ensures UpdateElement(l2, UpdateElement(l1, e)) == UpdateElement(l2, e)
  {
    TranslatedInBoth(l1, l2, e.key);
  }

  /** A key is translated in one language exactly when it is in the other. */
  lemma TranslatedInBoth(l1: Lang, l2: Lang, key: string)
    ensures Translates(l1, key) <==> Translates(l2, key)
  {
    SameKey(key);
    if key in Table(l1) {
      EntryNonEmpty(l1, key);
      EntryNonEmpty(l2, key);
    }
  }

  /** `getTranslation(key)`: the current table's entry when it is truthy,
      otherwise the key itself. */
  function GetTranslation(l: Lang, key: string): (r: string)
    ensures Translates(l, key) ==> r == Table(l)[key] && r != []
    ensures !Translates(l, key) ==> r == key
  {
    if Translates(l, key) then Table(l)[key] else key
  }

  /** A key lacking from the tables comes back unchanged in both languages,
      and a key they have is in both and gets each table's entry. */
  lemma TranslationFallsBackToKey(key: string)
    ensures key !in EnTable ==> GetTranslation(En, key) == key && GetTranslation(Zh, key) == key
    ensures key in EnTable ==> key in ZhTable
    ensures key in EnTable ==> GetTranslation(En, key) == EnTable[key] && GetTranslation(Zh, key) == ZhTable[key]
  {
    SameKey(key);
    if key in EnTable {
      EntryNonEmpty(En, key);
      EntryNonEmpty(Zh, key);
    }
  }

  /** `initI18n`: the saved language, else the browser's, else `zh`; an
      empty string counts as absent. */
  function InitialLanguage(saved: Option<string>, browser: Option<string>): (l: Lang)
    ensures saved.Some? && saved.value != [] ==> l == Normalize(saved.value)
    ensures (saved.None? || saved.value == []) && browser.Some? && browser.value != [] ==>
      l == Normalize(browser.value)
    ensures (saved.None? || saved.value == []) && (browser.None? || browser.value == []) ==> l == Zh
  {
    NormalizeCode(Zh);
    Normalize(Js.OrString(saved, Js.OrString(browser, "zh")))
  }

  /** The saved choice survives a reload: after `setLanguage`, initialising
      from what it saved picks the same language whatever the browser says. */
  lemma SavedLanguageWinsOnReload(page: Page, lang: string, browser: Option<string>)
    ensures var p := SetLanguage(page, lang);
      InitialLanguage(p.saved, browser) == p.current
  {
    NormalizeCode(Normalize(lang));
  }

  /** The language button (frontend/script.js): `zh` switches to `en`,
      anything else to `zh`. */
  function ToggleTarget(htmlLang: string): (target: string)
    ensures target in {"en", "zh"}
    ensures htmlLang in {"en", "zh"} ==> target != htmlLang
    ensures htmlLang !in {"en", "zh"} ==> target == "zh"
  {
    if htmlLang == "zh" then "en" else "zh"
  }

  /** Pressing the language button twice returns to the starting language. */
  lemma ToggleTwiceRestores(page: Page)
    ensures var once := SetLanguage(page, ToggleTarget(page.htmlLang));
      var twice := SetLanguage(once, ToggleTarget(once.htmlLang));
      once.current != twice.current
      && (page.htmlLang == Code(page.current) ==> twice.current == page.current)
  {
  }
}

=== FILE: js.dfy ===
/** The JavaScript values the frontend reads from JSON replies, with the
    language's truthiness, `||` and template-literal rendering. */
module Js {
  import opened Wrappers
  import opened Text

  /** A JSON field as JavaScript sees it; a missing field is `Undefined`.
      Numbers are the integers the API sends. */
  datatype Value = Undefined | Null | Bool(b: bool) | Num(n: int) | Str(s: string)

  /** JavaScript's `Boolean(v)`. */
  function Truthy(v: Value): (b: bool)
    ensures !b <==> v in {Undefined, Null, Bool(false), Num(0), Str("")}
  {
    match v
    case Undefined => false
    case Null => false
    case Bool(b) => b
    case Num(n) => n != 0
    case Str(s) => s != []
  }

  /** `a || b`: the first operand if truthy, otherwise the second. */
  function Or(a: Value, b: Value): (r: Value)
    ensures Truthy(r) <==> Truthy(a) || Truthy(b)
    ensures r == a || r == b
    ensures Truthy(a) ==> r == a
  {
    if Truthy(a) then a else b
  }

  /** `a || b` for a string-or-null `a` (a `localStorage` or URL lookup) and
      a string `b`. */
  function OrString(a: Option<string>, b: string): (r: string)
    ensures a.Some? && a.value != [] ==> r == a.value
    ensures (a.None? || a.value == []) ==> r == b
  {
    match Or(match a case Some(s) => Str(s) case None => Null, Str(b))
    case Str(s) => s
    case _ => b
  }

  /** `${v}` in a template literal. */
  function Render(v: Value): (r: string)
    ensures v.Str? ==> r == v.s
    ensures v.Num? && v.n >= 0 ==> |r| > 0 && AllDigits(r) && DecimalValue(r) == v.n && (r[0] == '0' ==> v.n == 0)
    ensures v.Num? && v.n < 0 ==> |r| > 1 && r[0] == '-' && AllDigits(r[1..]) && DecimalValue(r[1..]) == -v.n
  {
    match v
    case Undefined => "undefined"
    case Null => "null"
    case Bool(b) => if b then "true" else "false"
    case Num(n) => IntToDecimal(n)
    case Str(s) => s
  }
}

=== FILE: lifecycle.dfy ===
/**
 The life of one paste across several requests to backend/main.py: how many
 reads a row survives, and what is left behind.
 */
module Lifecycle {
  import opened Wrappers
  import opened Utils
  import opened Models
  import opened Schemas
  import opened Api

  /** Consecutive reads of one id, the i-th at clock reading `times[i]`:
      the final store and every reply in order. */
  function ReadAll(store: Store, id: string, times: seq<int>, cipher: Cipher)
    : (r: (Store, seq<Result<ViewResponse, HttpError>>))
    ensures |r.1| == |times|
    decreases |times|
  {
    if times == [] then (store, [])
    else
      var step := Get(store, id, times[0], cipher);
      var rest := ReadAll(step.store, id, times[1..], cipher);
      (rest.0, [step.result] + rest.1)
  }

  /** None of the clock readings is past the row's lifetime. */
  predicate LiveThroughout(p: Paste, times: seq<int>) {
    forall i :: 0 <= i < |times| ==> !Expired(p, times[i])
  }

  /** A row with a view limit and `n` views left answers exactly `n` reads
      with its content; the last of them deletes it, leaving every other row
      as it was. */
  lemma {:induction false} LimitedReads(store: Store, id: string, times: seq<int>, cipher: Cipher,
                                        content: string)
    requires Valid(store)
    requires id in store && store[id].maxViews > 0
    requires |times| == store[id].maxViews - store[id].currentViews
    requires LiveThroughout(store[id], times)
    requires DecryptText(cipher, store[id].encryptedContent) == Success(content)
    ensures forall i :: 0 <= i < |times| ==> ReadAll(store, id, times, cipher).1[i] == Success(ViewResponse(content))
    ensures ReadAll(store, id, times, cipher).0 == store - {id}
    decreases |times|
  {
    var p := store[id];
    var step := Get(store, id, times[0], cipher);
    GetCountsOneView(store, id, times[0], cipher);
    GetPreservesValid(store, id, times[0], cipher);
    if |times| == 1 {
      assert step.store == store - {id};
    } else {
      var p' := step.store[id];
      assert p' == p.(currentViews := p.currentViews + 1);
      assert LiveThroughout(p', times[1..]) by {
        forall i | 0 <= i < |times[1..]|
          ensures !Expired(p', times[1..][i])
        {
          assert times[1..][i] == times[i + 1];
        }
      }
      LimitedReads(step.store, id, times[1..], cipher, content);
      assert step.store - {id} == store - {id};
    }
  }

  /** A row without a view limit answers every read within its lifetime with
      its content and stays, its count raised by the number of reads. */
  lemma UnlimitedReads(store: Store, id: string, times: seq<int>, cipher: Cipher, content: string)
    requires id in store && store[id].maxViews == 0
    requires LiveThroughout(store[id], times)
    requires DecryptText(cipher, store[id].encryptedContent) == Success(content)
    ensures forall i :: 0 <= i < |times| ==> ReadAll(store, id, times, cipher).1[i] == Success(ViewResponse(content))
    ensures ReadAll(store, id, times, cipher).0
      == store[id := store[id].(currentViews := store[id].currentViews + |times|)]
  {
    UnlimitedReplies(store, id, times, cipher, content);
    UnlimitedCount(store, id, times, cipher, content);
  }

  lemma {:induction false} UnlimitedReplies(store: Store, id: string, times: seq<int>, cipher: Cipher,
                                            content: string)
    requires id in store && store[id].maxViews == 0
    requires LiveThroughout(store[id], times)
    requires DecryptText(cipher, store[id].encryptedContent) == Success(content)
    ensures forall i :: 0 <= i < |times| ==> ReadAll(store, id, times, cipher).1[i] == Success(ViewResponse(content))
    decreases |times|
  {
    if times != [] {
      var p' := store[id].(currentViews := store[id].currentViews + 1);
      UnlimitedStep(store, id, times[0], cipher, content);
      LaterReadsLive(store[id], p', times);
      UnlimitedReplies(store[id := p'], id, times[1..], cipher, content);
    }
  }

  lemma {:induction false} UnlimitedCount(store: Store, id: string, times: seq<int>, cipher: Cipher,
                                          content: string)
    requires id in store && store[id].maxViews == 0
    requires LiveThroughout(store[id], times)
    requires DecryptText(cipher, store[id].encryptedContent) == Success(content)
    ensures ReadAll(store, id, times, cipher).0
      == store[id := store[id].(currentViews := store[id].currentViews + |times|)]
    decreases |times|
  {
    var p := store[id];
    if times == [] {
      assert store[id := p] == store;
    } else {
      var p' := p.(currentViews := p.currentViews + 1);
      UnlimitedStep(store, id, times[0], cipher, content);
      LaterReadsLive(p, p', times);
      var next := store[id := p'];
      UnlimitedCount(next, id, times[1..], cipher, content);
      assert p'.(currentViews := p'.currentViews + |times[1..]|) == p.(currentViews := p.currentViews + |times|);
      OverwriteTwice(store, id, p', p.(currentViews := p.currentViews + |times|));
    }
  }

  /** Filing a second row under the same id replaces the first. */
  lemma OverwriteTwice(store: Store, id: string, a: Paste, b: Paste)
    ensures store[id := a][id := b] == store[id := b]
  {
  }

  /** A row that differs only in its view count lives through the remaining
      reads. */
  lemma LaterReadsLive(p: Paste, p': Paste, times: seq<int>)
    requires times != [] && LiveThroughout(p, times)
    requires p' == p.(currentViews := p'.currentViews)
    ensures LiveThroughout(p', times[1..])
  {
    forall i | 0 <= i < |times[1..]|
      ensures !Expired(p', times[1..][i])
    {
      assert times[1..][i] == times[i + 1];
    }
  }

  /** One read of a live unlimited row: its content, and the row kept with
      one more view. */
  lemma UnlimitedStep(store: Store, id: string, now: int, cipher: Cipher, content: string)
    requires id in store && store[id].maxViews == 0 && !Expired(store[id], now)
    requires DecryptText(cipher, store[id].encryptedContent) == Success(content)
    ensures Get(store, id, now, cipher)
      == Step(store[id := store[id].(currentViews := store[id].currentViews + 1)], Success(ViewResponse(content)))
  {
  }

  /** Burn after reading: a paste created with `max_views = N > 0` gives its
      content to exactly the first N reads made within its lifetime; the
      next read is a 404, and the store is back to what it was before the
      paste was created. */
  lemma BurnAfterReading(store: Store, req: CreateRequest, pick: Picker, now: int, cipher: Cipher,
                         baseUrl: Option<string>, times: seq<int>, later: int)
    requires Valid(store) && RoundTrips(cipher)
    requires Create(store, req, pick, now, cipher, baseUrl).result.Success?
    requires req.maxViews > 0 && |times| == req.maxViews
    requires forall i :: 0 <= i < |times| ==>
      req.expireHours == 0 || times[i] <= now + req.expireHours * MicrosPerHour
    ensures var created := Create(store, req, pick, now, cipher, baseUrl);
      var id := created.result.value.uniqueId;
      var replies := ReadAll(created.store, id, times, cipher);
      && (forall i :: 0 <= i < |times| ==> replies.1[i] == Success(ViewResponse(req.content)))
      && replies.0 == store
      && Get(replies.0, id, later, cipher) == Step(store, Failure(HttpError(404, NotFoundDetail)))
  {
    var id, row := CreatedRow(store, req, pick, now, cipher, baseUrl);
    assert LiveThroughout(row, times);
    assert DecryptText(cipher, row.encryptedContent) == Success(req.content);
    assert WellFormed(row);
    BurnRow(store, id, row, times, cipher, req.content, later);
  }

  /** Burn after reading for one freshly filed row. */
  lemma BurnRow(store: Store, id: string, row: Paste, times: seq<int>, cipher: Cipher, content: string,
                later: int)
    requires Valid(store) && id !in store && row.uniqueId == id && WellFormed(row)
    requires row.maxViews > 0 && row.currentViews == 0 && |times| == row.maxViews
    requires LiveThroughout(row, times)
    requires DecryptText(cipher, row.encryptedContent) == Success(content)
    ensures var replies := ReadAll(store[id := row], id, times, cipher);
      && (forall i :: 0 <= i < |times| ==> replies.1[i] == Success(ViewResponse(content)))
      && replies.0 == store
      && Get(replies.0, id, later, cipher) == Step(store, Failure(HttpError(404, NotFoundDetail)))
  {
    FilingKeepsValid(store, id, row);
    LimitedReads(store[id := row], id, times, cipher, content);
    InsertedRowRemoves(store, id, row);
    GetUnknownId(store, id, later, cipher);
  }

  /** A paste created from content alone, every other field left at its
      default, never expires and is never burnt: every read at any time
      returns the content and the row stays. */
  lemma DefaultsKeepPasteForever(store: Store, content: string, pick: Picker, now: int, cipher: Cipher,
                                 baseUrl: Option<string>, times: seq<int>)
    requires RoundTrips(cipher)
    requires Create(store, RequestWithDefaults(content), pick, now, cipher, baseUrl).result.Success?
    ensures var created := Create(store, RequestWithDefaults(content), pick, now, cipher, baseUrl);
      var id := created.result.value.uniqueId;
      var replies := ReadAll(created.store, id, times, cipher);
      && (forall i :: 0 <= i < |times| ==> replies.1[i] == Success(ViewResponse(content)))
      && id in replies.0
      && replies.0[id].currentViews == |times|
  {
    var req := RequestWithDefaults(content);
    var created := Create(store, req, pick, now, cipher, baseUrl);
    var id, row := CreatedRow(store, req, pick, now, cipher, baseUrl);
    assert created.store[id] == row;
    assert DecryptText(cipher, row.encryptedContent) == Success(content);
    UnlimitedReads(created.store, id, times, cipher, content);
  }
}

=== FILE: models.dfy ===
/** backend/models.py: the `pastes` table, and the store as the set of its rows. */
module Models {
  import opened Wrappers

  /** Width of the `unique_id` column, `String(10)`. */
  const UniqueIdWidth: nat := 10

  /** One row of `pastes`. `created_at` is a point on the server's UTC clock in
      microseconds; `password_hash` is `None` for SQL NULL. */
  datatype Paste = Paste(
    uniqueId: string,
    encryptedContent: string,
    createdAt: int,
    expireHours: int,
    maxViews: int,
    currentViews: int,
    passwordHash: Option<string>)

  /** The table, keyed by `unique_id`: the column is non-null and unique, so
      a map from id to row holds exactly the table's content. */
  type Store = map<string, Paste>

  /** A row with its column defaults: `expire_hours` 0 (never expires),
      `max_views` 0 (unlimited), `current_views` 0, `password_hash` NULL. */
  function NewPaste(uniqueId: string, encryptedContent: string, createdAt: int): Paste {
    Paste(uniqueId, encryptedContent, createdAt, 0, 0, 0, None)
  }

  /** What every stored row satisfies: the id fits its column, the counters
      are non-negative, a row with a view limit has views left, and no
      password hash is ever set. */
  predicate WellFormed(p: Paste) {
    && |p.uniqueId| <= UniqueIdWidth
    && p.expireHours >= 0
    && p.maxViews >= 0
    && p.currentViews >= 0
    && (p.maxViews > 0 ==> p.currentViews < p.maxViews)
    && p.passwordHash == None
  }

  /** Every row is filed under its own `unique_id` and is well formed. */
  predicate Valid(store: Store) {
    forall id :: id in store ==> store[id].uniqueId == id && WellFormed(store[id])
  }
}

=== FILE: schemas.dfy ===
/** backend/schemas.py: the request and response bodies of the API. */
module Schemas {
  import opened Wrappers

  /** `PasteCreateRequest`: `content` is required, the rest optional. */
  datatype CreateRequest = CreateRequest(
    content: string,
    expireHours: int,
    maxViews: int,
    password: Option<string>)

  /** A create request that gives only `content`: the omitted fields take
      their declared defaults. */
  function RequestWithDefaults(content: string): CreateRequest {
    CreateRequest(content, 0, 0, None)
  }

  /** `PasteCreateResponse`. */
  datatype CreateResponse = CreateResponse(
    shareUrl: string,
    uniqueId: string,
    expireHours: int,
    maxViews: int,
    hasPassword: bool)

  /** `PasteVerifyRequest`: declared, but no route accepts it. */
  datatype VerifyRequest = VerifyRequest(password: string)

  /** `PasteViewResponse`: the content and nothing else. */
  datatype ViewResponse = ViewResponse(content: string)

  /** Python's `bool(password)` for an optional string. */
  predicate Truthy(password: Option<string>) {
    password.Some? && password.value != []
  }
}

=== FILE: script.dfy ===
/**
 frontend/script.js: the single-page app's pure decisions — reading a share
 id out of whatever the user pasted, routing on the URL fragment, switching
 tabs, showing one result section at a time, turning the create form into a
 request, building the share link, and reacting to the server's replies.
 */
module Script {
  import opened Wrappers
  import opened Text
  import opened Utils
  import opened Schemas
  import opened Models
  import Api
  import I18n
  import Js

  /** Every character of `s` is an ASCII letter or digit. */
  predicate Alphanumeric(s: string) {
    forall i :: 0 <= i < |s| ==> IsIdChar(s[i])
  }

  lemma AlphanumericLacks(s: string)
    requires Alphanumeric(s)
    ensures '=' !in s && '#' !in s && '/' !in s && '-' !in s
    ensures s != [] ==> !JsIsWhiteSpace(s[|s| - 1])
  {
    forall c | c in s
      ensures IsIdChar(c)
    {
      var i :| 0 <= i < |s| && s[i] == c;
    }
  }

  /** No occurrence of a pattern whose `m`-th character is absent. */
  lemma AbsentCharBlocks(s: string, p: string, m: nat)
    requires m < |p| && p[m] !in s
    ensures Find(s, p) == None
    ensures forall j: nat :: !OccursAt(s, p, j)
  {
    MissingCharBlocksFind(s, p, m);
  }

  /** In `prefix + "id=" + rest`, with no `=` before the marker or after it,
      the piece after the first `id=` is `rest`. */
  lemma PieceAfterMarker(prefix: string, rest: string)
    requires '=' !in prefix && '=' !in rest
    ensures SplitSecond(prefix + "id=" + rest, "id=") == Some(rest)
  {
    var s := prefix + "id=" + rest;
    var k := |prefix|;
    assert s[k..k + 3] == "id=";
    forall j: nat | j < k
      ensures !OccursAt(s, "id=", j)
    {
      assert s[j..j + 3][2] == s[j + 2];
      if j + 2 < k {
        assert s[j + 2] == prefix[j + 2];
      }
    }
    SplitSecondAt(s, "id=", k);
    assert s[k + 3..] == rest;
    AbsentCharBlocks(rest, "id=", 2);
  }

  // ----- the view button -----

  /** `(input.split('id=')[1] || input.split('/').pop() || '').split('#')[0]`
      on the trimmed share box. */
  function ExtractShareId(input: string): (id: string)
    ensures '#' !in id
    ensures var t := JsTrim(input);
      var s := SplitSecond(t, "id=");
      var piece := if s.Some? && s.value != [] then s.value else SplitLast(t, "/");
      id <= piece && (|id| == |piece| || piece[|id|] == '#')
  {
    var t := JsTrim(input);
    var piece := Js.OrString(SplitSecond(t, "id="), SplitLast(t, "/"));
    CutAtChar(piece, '#');
    SplitFirst(piece, "#")
  }

  /** What a click on the view button does: fetch the extracted id, or warn
      about an invalid link when nothing was extracted. */
  datatype ViewAction = Fetch(shareId: string) | InvalidLinkToast

  function OnViewButton(input: string): (a: ViewAction)
    ensures a.InvalidLinkToast? <==> ExtractShareId(input) == []
    ensures a.Fetch? ==> a.shareId == ExtractShareId(input) && a.shareId != [] && '#' !in a.shareId
  {
    var id := ExtractShareId(input);
    if id != [] then Fetch(id) else InvalidLinkToast
  }

  /** Any link ending in `id=` and an id is read back as that id, provided
      nothing before the marker holds `=` and the link does not start with
      whitespace. */
  lemma ExtractFromLink(prefix: string, id: string)
    requires '=' !in prefix && (prefix == [] || !JsIsWhiteSpace(prefix[0]))
    requires id != [] && Alphanumeric(id)
    ensures ExtractShareId(prefix + "id=" + id) == id
    ensures OnViewButton(prefix + "id=" + id) == Fetch(id)
  {
    var s := prefix + "id=" + id;
    AlphanumericLacks(id);
    assert s[|s| - 1] == id[|id| - 1];
    assert s[0] == (if prefix == [] then 'i' else prefix[0]);
    TrimKeeps(s, JsIsWhiteSpace);
    PieceAfterMarker(prefix, id);
    AbsentCharBlocks(id, "#", 0);
  }

  /** A bare id typed on its own is read back unchanged. */
  lemma ExtractBareId(id: string)
    requires id != [] && Alphanumeric(id)
    ensures ExtractShareId(id) == id
    ensures OnViewButton(id) == Fetch(id)
  {
    AlphanumericLacks(id);
    assert !JsIsWhiteSpace(id[0]);
    TrimKeeps(id, JsIsWhiteSpace);
    AbsentCharBlocks(id, "id=", 2);
    AbsentCharBlocks(id, "/", 0);
    AbsentCharBlocks(id, "#", 0);
  }

  /** The `share_url` the server returns, pasted into the view box, is read
      back as the id the server generated. */
  lemma ExtractFromServerShareUrl(baseUrl: Option<string>, id: string)
    requires baseUrl.Some? ==> '=' !in baseUrl.value && baseUrl.value != [] && !JsIsWhiteSpace(baseUrl.value[0])
    requires id != [] && Alphanumeric(id)
    ensures OnViewButton(Api.ShareUrl(baseUrl, id)) == Fetch(id)
  {
    var base := match baseUrl case Some(b) => b case None => Api.DefaultBaseUrl;
    var prefix := base + "/#view?";
    assert Api.ShareUrl(baseUrl, id) == prefix + "id=" + id;
    assert '=' !in prefix;
    assert prefix[0] == base[0];
    ExtractFromLink(prefix, id);
  }

  // ----- routing on the fragment -----

  /** What `handleUrl` decides: open the view tab and load an id, switch to
      an existing tab, or do nothing. */
  datatype Route = OpenView(shareId: string) | SwitchTo(tabId: string) | Stay

  /** `window.location.hash` as read back after assigning `fragment` to it,
      for a fragment that does not start with `#` and needs no escaping (as
      every tab name of the page). */
  function HashOf(fragment: string): (h: string)
    ensures fragment != [] ==> |h| == |fragment| + 1 && h[0] == '#' && h[1..] == fragment
    ensures fragment == [] ==> h == []
  {
    if fragment == [] then [] else "#" + fragment
  }

  /** `handleUrl()` on the current hash; `tabIds` are the ids of the page's
      elements, consulted by `getElementById`. */
  function HandleUrl(hash: string, tabIds: set<string>): (r: Route)
    ensures r.OpenView? <==> StartsWith(hash, "#view?id=")
    ensures r.OpenView? ==> SplitSecond(hash, "id=") == Some(r.shareId)
    ensures hash == [] ==> r == SwitchTo("create-tab")
    ensures hash != [] && !StartsWith(hash, "#view?id=") ==>
      (r.SwitchTo? <==> hash[1..] + "-tab" in tabIds)
      && (r.SwitchTo? ==> r.tabId == hash[1..] + "-tab")
  {
    if StartsWith(hash, "#view?id=") then
      assert OccursAt(hash, "id=", 6) by { assert hash[6..9] == "#view?id="[6..9]; }
      OpenView(SplitSecond(hash, "id=").value)
    else if hash != [] then
      var tabId := hash[1..] + "-tab";
      if tabId in tabIds then SwitchTo(tabId) else Stay
    else SwitchTo("create-tab")
  }

  /** `targetId.replace('-tab', '')`: the nav-tab name and hash of a tab. */
  function TabName(targetId: string): (name: string)
    ensures !Contains(targetId, "-tab") ==> name == targetId
    ensures Contains(targetId, "-tab") ==> |name| == |targetId| - 4
  {
    ReplaceFirst(targetId, "-tab", "")
  }

  /** A dash-free name plus `-tab` names back to itself. */
  lemma TabNameOfTab(name: string)
    requires '-' !in name
    ensures TabName(name + "-tab") == name
  {
    var s := name + "-tab";
    assert s[|name|..|name| + 4] == "-tab";
    forall j: nat | j < |name|
      ensures !OccursAt(s, "-tab", j)
    {
      assert s[j..j + 4][0] == s[j];
      assert s[j] == name[j];
    }
    FindIsFirstOccurrence(s, "-tab", |name|);
    assert s[..|name|] + "" + s[|name| + 4..] == name;
  }

  /** The tab classes and hash `switchTab(targetId)` leaves. */
  datatype Tabs = Tabs(contentActive: seq<bool>, navActive: seq<bool>, hash: string)

  /** `switchTab(targetId)`: `contentIds` are the `.tab-content` ids and
      `navTabs` the `.nav-tab` `data-tab` values, in document order. */
  function SwitchTab(targetId: string, contentIds: seq<string>, navTabs: seq<string>): (r: Tabs)
    ensures |r.contentActive| == |contentIds|
    ensures forall i :: 0 <= i < |contentIds| ==> (r.contentActive[i] <==> contentIds[i] == targetId)
    ensures |r.navActive| == |navTabs|
    ensures forall i :: 0 <= i < |navTabs| ==> (r.navActive[i] <==> navTabs[i] == TabName(targetId))
    ensures r.hash == HashOf(TabName(targetId))
  {
    Tabs(seq(|contentIds|, i requires 0 <= i < |contentIds| => contentIds[i] == targetId),
         seq(|navTabs|, i requires 0 <= i < |navTabs| => navTabs[i] == TabName(targetId)),
         HashOf(TabName(targetId)))
  }

  /** Routing settles: for a plain tab name, `handleUrl` switches to its tab
      and `switchTab` writes back the very hash it was routed from, so no
      further `hashchange` follows. */
  lemma RoutingSettles(name: string, tabIds: set<string>, contentIds: seq<string>, navTabs: seq<string>)
    requires name != [] && '-' !in name && !StartsWith("#" + name, "#view?id=")
    requires name + "-tab" in tabIds
    ensures HandleUrl("#" + name, tabIds) == SwitchTo(name + "-tab")
    ensures SwitchTab(name + "-tab", contentIds, navTabs).hash == "#" + name
  {
    assert ("#" + name)[1..] == name;
    TabNameOfTab(name);
  }

  /** Opening a share link: `#view?id=<id>` loads the id, but switching to the
      view tab rewrites the hash to `#view`; the resulting `hashchange` only
      re-selects the view tab and then settles, leaving the id out of the
      address bar. */
  lemma ShareLinkSettlesOnViewTab(id: string, tabIds: set<string>, contentIds: seq<string>, navTabs: seq<string>)
    requires Alphanumeric(id) && "view-tab" in tabIds
    ensures HandleUrl("#view?id=" + id, tabIds) == OpenView(id)
    ensures SwitchTab("view-tab", contentIds, navTabs).hash == "#view"
    ensures HandleUrl("#view", tabIds) == SwitchTo("view-tab")
  {
    ShareLinkOpensView(id, tabIds);
    ViewTabSettles(tabIds, contentIds, navTabs);
  }

  lemma ShareLinkOpensView(id: string, tabIds: set<string>)
    requires Alphanumeric(id)
    ensures HandleUrl("#view?id=" + id, tabIds) == OpenView(id)
  {
    var hash := "#view?id=" + id;
    assert StartsWith(hash, "#view?id=");
    assert SplitSecond(hash, "id=") == Some(id) by {
      AlphanumericLacks(id);
      PieceAfterMarker("#view?", id);
      assert "#view?" + "id=" + id == hash;
    }
  }

  lemma ViewTabSettles(tabIds: set<string>, contentIds: seq<string>, navTabs: seq<string>)
    requires "view-tab" in tabIds
    ensures SwitchTab("view-tab", contentIds, navTabs).hash == "#view"
    ensures HandleUrl("#view", tabIds) == SwitchTo("view-tab")
  {
    assert !StartsWith("#view", "#view?id=");
    assert "view" + "-tab" == "view-tab";
    assert "#" + "view" == "#view";
    RoutingSettles("view", tabIds, contentIds, navTabs);
  }

  // ----- the view-tab result sections -----

  /** The four result sections of the view tab. */
  datatype Section = Loading | Password | Content | Error

  /** `displayViewResult(show)`: hide the four sections, then reveal `show`
      if the page has it; `present` is the set of sections on the page. */
  function DisplayViewResult(show: Section, present: set<Section>): (visible: set<Section>)
    ensures visible <= present
    ensures forall s :: s in visible <==> s == show && show in present
  {
    if show in present then {show} else {}
  }

  // ----- creating a paste -----

  /** The create form's fields as `FormData` yields them; the two selects
      are read through `parseInt` (see README). */
  datatype CreateForm = CreateForm(content: string, expireHours: int, maxViews: int, password: string)

  /** `createPaste`'s decision: refuse with a toast key, or send a request. */
  datatype Submission = Refuse(toastKey: string) | Send(request: CreateRequest)

  function SubmitCreate(form: CreateForm): (r: Submission)
    ensures r.Refuse? <==> JsTrim(form.content) == []
    ensures r.Refuse? ==> r.toastKey == "toast_no_content"
    ensures r.Send? ==>
      && r.request.content == form.content
      && r.request.expireHours == form.expireHours
      && r.request.maxViews == form.maxViews
    ensures r.Send? ==> (r.request.password.None? <==> form.password == [])
    ensures r.Send? && r.request.password.Some? ==> r.request.password.value == form.password
  {
    if JsTrim(form.content) == [] then Refuse("toast_no_content")
    else
      var password := if form.password == [] then None else Some(form.password);
      Send(CreateRequest(form.content, form.expireHours, form.maxViews, password))
  }

  /** The server reports a password exactly when the field was filled in. */
  lemma PasswordReportedIffFilled(form: CreateForm, store: Store, pick: Api.Picker, now: int,
                                  cipher: Cipher, baseUrl: Option<string>)
    requires SubmitCreate(form).Send?
    ensures var req := SubmitCreate(form).request;
      var r := Api.Create(store, req, pick, now, cipher, baseUrl);
      r.result.Success? ==> (r.result.value.hasPassword <==> form.password != [])
  {
    var req := SubmitCreate(form).request;
    var r := Api.Create(store, req, pick, now, cipher, baseUrl);
    if r.result.Success? {
      var id, row := Api.CreatedRow(store, req, pick, now, cipher, baseUrl);
      assert r.result.value.hasPassword == Truthy(req.password);
    }
  }

  /** For content on which both languages agree about whitespace, the
      browser's emptiness check and the server's coincide. */
  lemma SameWhitespaceSameVerdict(form: CreateForm)
    requires forall i :: 0 <= i < |form.content| ==> (PythonIsSpace(form.content[i]) <==> JsIsWhiteSpace(form.content[i]))
    ensures SubmitCreate(form).Send? <==> !Api.IsBlank(form.content)
  {
    TrimEmptyIff(form.content, JsIsWhiteSpace);
    TrimEmptyIff(form.content, PythonIsSpace);
  }

  /** Where the two disagree: an information separator (U+001C) passes the
      browser's check and is refused by the server with 400, while a byte
      order mark (U+FEFF) is refused by the browser though the server would
      accept it. */
  lemma TrimAndStripDisagree(store: Store, pick: Api.Picker, now: int, cipher: Cipher, baseUrl: Option<string>)
    ensures var sub := SubmitCreate(CreateForm("\U{1C}", 0, 0, ""));
      && sub.Send?
      && Api.Create(store, sub.request, pick, now, cipher, baseUrl)
         == Api.Step(store, Failure(Api.HttpError(400, Api.ContentEmptyDetail)))
    ensures SubmitCreate(CreateForm("\U{FEFF}", 0, 0, "")).Refuse?
    ensures !Api.IsBlank("\U{FEFF}")
  {
    OnlyServerStrips('\U{1C}', store, pick, now, cipher, baseUrl);
    OnlyBrowserTrims('\U{FEFF}');
  }

  /** A character only Python counts as whitespace passes the browser's
      check and is refused by the server. */
  lemma OnlyServerStrips(c: char, store: Store, pick: Api.Picker, now: int, cipher: Cipher, baseUrl: Option<string>)
    requires PythonIsSpace(c) && !JsIsWhiteSpace(c)
    ensures var sub := SubmitCreate(CreateForm([c], 0, 0, ""));
      && sub.Send?
      && Api.Create(store, sub.request, pick, now, cipher, baseUrl)
         == Api.Step(store, Failure(Api.HttpError(400, Api.ContentEmptyDetail)))
  {
    var req := CreateRequest([c], 0, 0, None);
    BrowserSends(c);
    assert Api.IsBlank(req.content) by {
      TrimEmptyIff([c], PythonIsSpace);
    }
    Api.CreateRejectsInvalidRequest(store, req, pick, pick, now, cipher, baseUrl);
  }

  /** A character JavaScript does not count as whitespace is sent as it is. */
  lemma BrowserSends(c: char)
    requires !JsIsWhiteSpace(c)
    ensures SubmitCreate(CreateForm([c], 0, 0, "")) == Send(CreateRequest([c], 0, 0, None))
  {
    TrimKeeps([c], JsIsWhiteSpace);
  }

  /** A character only JavaScript counts as whitespace is refused by the
      browser though the server would accept it. */
  lemma OnlyBrowserTrims(c: char)
    requires JsIsWhiteSpace(c) && !PythonIsSpace(c)
    ensures SubmitCreate(CreateForm([c], 0, 0, "")).Refuse?
    ensures !Api.IsBlank([c])
  {
    TrimEmptyIff([c], JsIsWhiteSpace);
    TrimKeeps([c], PythonIsSpace);
  }

  /** The link shown after creating: the page's origin, its path with the
      first `index.html` removed, then `#view?id=` and the id. */
  function PasteUrl(origin: string, pathname: string, id: string): (url: string)
    ensures '#' !in origin && '#' !in pathname ==>
      Fragment(url) == "#view?id=" + id
    ensures origin <= url
    ensures |url| >= |id| + 9 && url[|url| - |id| - 9..] == "#view?id=" + id
    ensures !Contains(pathname, "index.html") ==> url == origin + pathname + "#view?id=" + id
    ensures Contains(pathname, "index.html") ==> |url| == |origin| + |pathname| - 10 + 9 + |id|
  {
    var path := ReplaceFirst(pathname, "index.html", "");
    LinkFragment(origin, pathname, path, id);
    origin + path + "#view?id=" + id
  }

  lemma LinkFragment(origin: string, pathname: string, path: string, id: string)
    requires path == ReplaceFirst(pathname, "index.html", "")
    ensures '#' !in origin && '#' !in pathname ==>
      Fragment(origin + path + "#view?id=" + id) == "#view?id=" + id
  {
    if '#' !in origin && '#' !in pathname {
      ReplaceFirstKeepsAbsentChar(pathname, "index.html", "", '#');
      assert '#' !in origin + path;
      FragmentAfterFirstHash(origin + path, "view?id=" + id);
      assert "#view?id=" == "#" + "view?id=";
      assert origin + path + "#view?id=" + id == (origin + path) + "#" + ("view?id=" + id);
    }
  }

  /** `location.hash` of a URL: from its first `#` on, empty when the
      fragment is. */
  function Fragment(url: string): string {
    match Find(url, "#")
    case Some(i) => if i + 1 == |url| then [] else url[i..]
    case None => []
  }

  lemma FragmentAfterFirstHash(before: string, after: string)
    requires '#' !in before && after != []
    ensures Fragment(before + "#" + after) == "#" + after
  {
    var s := before + "#" + after;
    assert s[|before|..|before| + 1] == "#";
    forall j: nat | j < |before|
      ensures !OccursAt(s, "#", j)
    {
      assert s[j..j + 1][0] == s[j];
      assert s[j] == before[j];
    }
    FindIsFirstOccurrence(s, "#", |before|);
    assert s[|before|..] == "#" + after;
  }

  /** The created link opens the paste: its fragment routes to the view of
      the new id, and pasting it into the view box reads back the same id. */
  lemma PasteUrlRoundTrip(origin: string, pathname: string, id: string, tabIds: set<string>)
    requires '#' !in origin && '#' !in pathname && '=' !in origin && '=' !in pathname
    requires origin != [] && !JsIsWhiteSpace(origin[0])
    requires id != [] && Alphanumeric(id)
    ensures HandleUrl(Fragment(PasteUrl(origin, pathname, id)), tabIds) == OpenView(id)
    ensures OnViewButton(PasteUrl(origin, pathname, id)) == Fetch(id)
  {
    PasteUrlOpensView(origin, pathname, id, tabIds);
    PasteUrlReadsBack(origin, pathname, id);
  }

  lemma PasteUrlOpensView(origin: string, pathname: string, id: string, tabIds: set<string>)
    requires '#' !in origin && '#' !in pathname
    requires Alphanumeric(id)
    ensures HandleUrl(Fragment(PasteUrl(origin, pathname, id)), tabIds) == OpenView(id)
  {
    assert Fragment(PasteUrl(origin, pathname, id)) == "#view?id=" + id;
    ShareLinkOpensView(id, tabIds);
  }

  lemma PasteUrlReadsBack(origin: string, pathname: string, id: string)
    requires '=' !in origin && '=' !in pathname
    requires origin != [] && !JsIsWhiteSpace(origin[0])
    requires id != [] && Alphanumeric(id)
    ensures OnViewButton(PasteUrl(origin, pathname, id)) == Fetch(id)
  {
    var path := ReplaceFirst(pathname, "index.html", "");
    ReplaceFirstKeepsAbsentChar(pathname, "index.html", "", '=');
    var prefix := origin + path + "#view?";
    assert PasteUrl(origin, pathname, id) == prefix + "id=" + id;
    assert '=' !in prefix;
    assert prefix[0] == origin[0];
    ExtractFromLink(prefix, id);
  }

  /** A create reply as the page reads it: `response.ok`, `result.detail`
      (absent on success) and `result.unique_id`. */
  datatype CreateReply = CreateReply(ok: bool, detail: Option<string>, uniqueId: string)

  /** The server's create outcome as the page receives it. */
  function CreateReplyOf(r: Result<CreateResponse, Api.HttpError>): CreateReply {
    match r
    case Success(resp) => CreateReply(true, None, resp.uniqueId)
    case Failure(e) => CreateReply(false, Some(e.detail), [])
  }

  /** What the page shows after the create request. */
  datatype CreateOutcome = ShowLink(url: string) | ShowToast(message: string)

  /** The `try`/`catch` of `createPaste`: a link on success; otherwise the
      detail (or the translated fallback) becomes the error message, which
      `showToast` passes through `getTranslation` once more. */
  function OnCreateReply(reply: CreateReply, lang: I18n.Lang, origin: string, pathname: string): (r: CreateOutcome)
    ensures r.ShowLink? <==> reply.ok
    ensures r.ShowLink? ==> r.url == PasteUrl(origin, pathname, reply.uniqueId)
    ensures !reply.ok && reply.detail.Some? && reply.detail.value != [] ==>
      r == ShowToast(I18n.GetTranslation(lang, reply.detail.value))
    ensures !reply.ok && (reply.detail.None? || reply.detail.value == []) ==>
      r == ShowToast(I18n.GetTranslation(lang, I18n.GetTranslation(lang, "toast_create_failed")))
  {
    if reply.ok then ShowLink(PasteUrl(origin, pathname, reply.uniqueId))
    else
      var message := Js.OrString(reply.detail, I18n.GetTranslation(lang, "toast_create_failed"));
      ShowToast(I18n.GetTranslation(lang, message))
  }

  /** The server's validation messages reach the toast verbatim, in either
      language, since no translation key is a Chinese sentence. */
  lemma CreateErrorsShownVerbatim(lang: I18n.Lang, origin: string, pathname: string)
    ensures forall d :: d in {Api.ContentEmptyDetail, Api.ExpireNegativeDetail, Api.ViewsNegativeDetail, Api.NoUniqueIdDetail} ==>
      OnCreateReply(CreateReply(false, Some(d), []), lang, origin, pathname) == ShowToast(d)
  {
    I18n.NotAKey(Api.ContentEmptyDetail);
    I18n.NotAKey(Api.ExpireNegativeDetail);
    I18n.NotAKey(Api.ViewsNegativeDetail);
    I18n.NotAKey(Api.NoUniqueIdDetail);
  }

  /** End to end: a successful create shows a link that opens the new paste. */
  lemma CreatedLinkOpensPaste(store: Store, req: CreateRequest, pick: Api.Picker, now: int, cipher: Cipher,
                              baseUrl: Option<string>, lang: I18n.Lang, origin: string, pathname: string,
                              tabIds: set<string>)
    requires '#' !in origin && '#' !in pathname && '=' !in origin && '=' !in pathname
    requires origin != [] && !JsIsWhiteSpace(origin[0])
    requires Api.Create(store, req, pick, now, cipher, baseUrl).result.Success?
    ensures var r := Api.Create(store, req, pick, now, cipher, baseUrl).result;
      var shown := OnCreateReply(CreateReplyOf(r), lang, origin, pathname);
      && shown.ShowLink?
      && HandleUrl(Fragment(shown.url), tabIds) == OpenView(r.value.uniqueId)
      && OnViewButton(shown.url) == Fetch(r.value.uniqueId)
  {
    var r := Api.Create(store, req, pick, now, cipher, baseUrl);
    var id, row := Api.CreatedRow(store, req, pick, now, cipher, baseUrl);
    PasteUrlRoundTrip(origin, pathname, id, tabIds);
  }

  // ----- viewing a paste -----

  /** A get reply as the page reads it: `response.ok`, `result.detail` and
      `result.content`, absent fields as `None`. */
  datatype GetReply = GetReply(ok: bool, detail: Option<string>, content: Option<string>)

  function GetReplyOf(r: Result<ViewResponse, Api.HttpError>): GetReply {
    match r
    case Success(v) => GetReply(true, None, Some(v.content))
    case Failure(e) => GetReply(false, Some(e.detail), None)
  }

  /** What `viewPaste` ends on: the password prompt, the content, or the
      error section with its message. */
  datatype ViewScreen = PasswordPrompt | ShowContent(text: string) | ShowError(message: string)

  /** The section each screen reveals. */
  function SectionOf(v: ViewScreen): Section {
    match v
    case PasswordPrompt => Password
    case ShowContent(_) => Content
    case ShowError(_) => Error
  }

  /** `viewPaste` after the reply: a failure whose detail mentions 密码
      (password) asks for one; any other failure shows the detail, or the
      translated fallback; success shows the content. */
  function OnGetReply(reply: GetReply, lang: I18n.Lang): (r: ViewScreen)
    ensures r.PasswordPrompt? <==> !reply.ok && reply.detail.Some? && Contains(reply.detail.value, "密码")
    ensures r.ShowContent? <==> reply.ok
    ensures r.ShowContent? ==> r.text == (match reply.content case Some(c) => c case None => [])
    ensures r.ShowError? && reply.detail.Some? && reply.detail.value != [] ==> r.message == reply.detail.value
    ensures r.ShowError? && (reply.detail.None? || reply.detail.value == []) ==>
      r.message == I18n.GetTranslation(lang, "toast_view_failed")
  {
    if !reply.ok then
      if reply.detail.Some? && reply.detail.value != [] && Contains(reply.detail.value, "密码") then PasswordPrompt
      else ShowError(Js.OrString(reply.detail, I18n.GetTranslation(lang, "toast_view_failed")))
    else ShowContent(match reply.content case Some(c) => c case None => [])
  }

  /** With all four sections on the page, `viewPaste` leaves exactly one
      visible: the content section exactly for a successful reply, and the
      password section only for a failed one. */
  lemma ViewPasteShowsReplySection(reply: GetReply, lang: I18n.Lang)
    ensures var visible := DisplayViewResult(SectionOf(OnGetReply(reply, lang)), {Loading, Password, Content, Error});
      && |visible| == 1
      && (Content in visible <==> reply.ok)
      && (Password in visible ==> !reply.ok)
      && Loading !in visible
  {
    var visible := DisplayViewResult(SectionOf(OnGetReply(reply, lang)), {Loading, Password, Content, Error});
    assert visible == {SectionOf(OnGetReply(reply, lang))};
  }

  lemma NoPasswordIn(s: string)
    requires '密' !in s
    ensures !Contains(s, "密码")
  {
    AbsentCharBlocks(s, "密码", 0);
  }

  /** Against this server the password prompt never comes up for a missing,
      expired or used-up link: those show the server's message, and a
      successful read shows the content. */
  lemma ServerRepliesOnViewTab(store: Store, id: string, now: int, cipher: Cipher, lang: I18n.Lang)
    ensures var r := Api.Get(store, id, now, cipher).result;
      var screen := OnGetReply(GetReplyOf(r), lang);
      && (r.Success? ==> screen == ShowContent(r.value.content))
      && (r.Failure? && r.error.status == 404 ==> screen == ShowError(r.error.detail))
  {
    var r := Api.Get(store, id, now, cipher).result;
    if r.Failure? && r.error.status == 404 {
      Api.GetFailureKinds(store, id, now, cipher);
      LookupMessagesLackPassword(r.error.detail);
      FailureWithoutPasswordShowsDetail(r.error, lang);
    }
  }

  /** None of the three lookup failures mentions a password. */
  lemma LookupMessagesLackPassword(d: string)
    requires d in {Api.NotFoundDetail, Api.ExpiredDetail, Api.LimitReachedDetail}
    ensures d != [] && '密' !in d
  {
  }

  /** A failure whose message does not mention a password shows the message. */
  lemma FailureWithoutPasswordShowsDetail(e: Api.HttpError, lang: I18n.Lang)
    requires e.detail != [] && '密' !in e.detail
    ensures OnGetReply(GetReplyOf(Failure(e)), lang) == ShowError(e.detail)
  {
    NoPasswordIn(e.detail);
  }
}

=== FILE: text.dfy ===
/**
 String operations the frontend (JavaScript) and backend (Python) rely on:
 substring search, the `split` pieces the code picks out, first-occurrence
 replacement, whitespace trimming with each language's whitespace set, and
 decimal rendering of integers.
 */
module Text {
  import opened Wrappers

  /** `p` occurs in `s` starting at position `i`. */
  predicate OccursAt(s: string, p: string, i: nat) {
    i + |p| <= |s| && s[i..i + |p|] == p
  }

  /** `s.indexOf(p, from)`: the first position at or after `from` where `p` occurs. */
  function FindFrom(s: string, p: string, from: nat): (r: Option<nat>)
    ensures r.Some? ==> from <= r.value && OccursAt(s, p, r.value)
    ensures r.Some? ==> forall j: nat :: from <= j < r.value ==> !OccursAt(s, p, j)
    ensures r.None? ==> forall j: nat :: from <= j ==> !OccursAt(s, p, j)
    decreases |s| - from
  {
    if from + |p| > |s| then None
    else if s[from..from + |p|] == p then Some(from)
    else FindFrom(s, p, from + 1)
  }

  /** `s.indexOf(p)`, with `None` for JavaScript's -1. */
  function Find(s: string, p: string): Option<nat> {
    FindFrom(s, p, 0)
  }

  /** `s.includes(p)` in JavaScript, `p in s` in Python. */
  predicate Contains(s: string, p: string) {
    Find(s, p).Some?
  }

  lemma ContainsIff(s: string, p: string)
    ensures Contains(s, p) <==> exists i: nat :: OccursAt(s, p, i)
  {
    if Contains(s, p) {
      assert OccursAt(s, p, Find(s, p).value);
    }
  }

  /** The first occurrence of `p` in `s` is at `k` when `p` occurs at `k` and nowhere before. */
  lemma FindIsFirstOccurrence(s: string, p: string, k: nat)
    requires OccursAt(s, p, k)
    requires forall j: nat :: j < k ==> !OccursAt(s, p, j)
    ensures Find(s, p) == Some(k)
  {
  }

  /** A character that never occurs as a one-character pattern is absent. */
  lemma NoOccurrenceOfChar(s: string, c: char)
    requires forall j: nat :: !OccursAt(s, [c], j)
    ensures c !in s
  {
    forall i | 0 <= i < |s|
      ensures s[i] != c
    {
      assert s[i..i + 1] == [s[i]];
      assert !OccursAt(s, [c], i);
    }
  }

  /** `s.split(c)[0]` for one character `c`: the prefix of `s` that stops at
      the first `c`, or all of `s`. */
  lemma CutAtChar(s: string, c: char)
    ensures var r := SplitFirst(s, [c]);
      r <= s && c !in r && (|r| == |s| || s[|r|] == c)
  {
    var r := SplitFirst(s, [c]);
    NoOccurrenceOfChar(r, c);
    if r != s {
      assert s[|r|..|r| + 1] == [c];
    }
  }

  /** A pattern holding a character that `s` lacks does not occur in `s`. */
  lemma MissingCharBlocksFind(s: string, p: string, m: nat)
    requires m < |p|
    requires forall i :: 0 <= i < |s| ==> s[i] != p[m]
    ensures forall j: nat :: !OccursAt(s, p, j)
    ensures Find(s, p) == None
  {
    forall j: nat
      ensures !OccursAt(s, p, j)
    {
      if j + |p| <= |s| {
        assert s[j..j + |p|][m] == s[j + m];
      }
    }
  }

  /** `s.split(sep)[0]`: everything before the first occurrence of `sep`. */
  function SplitFirst(s: string, sep: string): (r: string)
    ensures r <= s
    ensures r == s || OccursAt(s, sep, |r|)
    ensures |sep| > 0 ==> forall j: nat :: !OccursAt(r, sep, j)
  {
    match Find(s, sep)
    case Some(i) =>
      assert forall j: nat :: OccursAt(s[..i], sep, j) ==> OccursAt(s, sep, j) && j + |sep| <= i by {
        forall j: nat | OccursAt(s[..i], sep, j)
          ensures OccursAt(s, sep, j) && j + |sep| <= i
        {
          assert s[..i][j..j + |sep|] == s[j..j + |sep|];
        }
      }
      s[..i]
    case None =>
      s
  }

  /** A string without `sep` is its own first piece. */
  lemma SplitFirstWithoutSeparator(s: string, sep: string)
    requires Find(s, sep) == None
    ensures SplitFirst(s, sep) == s
  {
  }

  /** `s.split(sep)[1]`: the piece between the first and second occurrence of
      `sep`, or `None` (JavaScript's `undefined`) when `sep` does not occur. */
  function SplitSecond(s: string, sep: string): (r: Option<string>)
    ensures r.None? <==> forall j: nat :: !OccursAt(s, sep, j)
    ensures r.Some? ==> |sep| > 0 ==> forall j: nat :: !OccursAt(r.value, sep, j)
  {
    match Find(s, sep)
    case Some(i) => Some(SplitFirst(s[i + |sep|..], sep))
    case None => None
  }

  /** `s.split(sep)[1]` when `sep` first occurs at `k`. */
  lemma SplitSecondAt(s: string, sep: string, k: nat)
    requires OccursAt(s, sep, k)
    requires forall j: nat :: j < k ==> !OccursAt(s, sep, j)
    ensures SplitSecond(s, sep) == Some(SplitFirst(s[k + |sep|..], sep))
  {
    FindIsFirstOccurrence(s, sep, k);
  }

  /** Where the last `split(sep)` piece starts when the scan resumes at `from`:
      each occurrence found moves the start past it. */
  function LastPieceStart(s: string, sep: string, from: nat): (r: nat)
    requires |sep| > 0
    requires from <= |s|
    ensures from <= r <= |s|
    ensures forall j: nat :: r <= j ==> !OccursAt(s, sep, j)
    ensures r == from || (|sep| <= r && OccursAt(s, sep, r - |sep|))
    decreases |s| - from
  {
    match FindFrom(s, sep, from)
    case Some(i) => LastPieceStart(s, sep, i + |sep|)
    case None => from
  }

  /** `s.split(sep).pop()`: the piece after the last occurrence of `sep`. */
  function SplitLast(s: string, sep: string): (r: string)
    requires |sep| > 0
    ensures |r| <= |s|
    ensures r == s[|s| - |r|..]
    ensures forall j: nat :: !OccursAt(r, sep, j)
    ensures r != s ==> |r| + |sep| <= |s| && OccursAt(s, sep, |s| - |r| - |sep|)
  {
    var k := LastPieceStart(s, sep, 0);
    SuffixClear(s, sep, k);
    s[k..]
  }

  /** A suffix starting past every occurrence of `sep` holds none. */
  lemma SuffixClear(s: string, sep: string, k: nat)
    requires k <= |s|
    requires forall j: nat :: k <= j ==> !OccursAt(s, sep, j)
    ensures forall j: nat :: !OccursAt(s[k..], sep, j)
  {
    forall j: nat | OccursAt(s[k..], sep, j)
      ensures false
    {
      OccursInSuffix(s, k, sep, j);
    }
  }

  /** A string without `sep` is its own last piece. */
  lemma SplitLastWithoutSeparator(s: string, sep: string)
    requires |sep| > 0
    requires Find(s, sep) == None
    ensures SplitLast(s, sep) == s
  {
  }

  /** An occurrence in `s[k..]` is an occurrence in `s`, shifted by `k`. */
  lemma OccursInSuffix(s: string, k: nat, p: string, q: nat)
    requires k <= |s|
    requires OccursAt(s[k..], p, q)
    ensures OccursAt(s, p, k + q)
  {
    assert s[k..][q..q + |p|] == s[k + q..k + q + |p|];
  }

  /** `s.replace(pat, rep)` with a string pattern: only the first occurrence is replaced. */
  function ReplaceFirst(s: string, pat: string, rep: string): (r: string)
    ensures Find(s, pat).None? ==> r == s
    ensures Find(s, pat).Some? ==> |r| == |s| - |pat| + |rep|
  {
    match Find(s, pat)
    case Some(i) => s[..i] + rep + s[i + |pat|..]
    case None => s
  }

  /** Replacing introduces no character that neither the string nor the
      replacement holds. */
  lemma ReplaceFirstKeepsAbsentChar(s: string, pat: string, rep: string, c: char)
    requires c !in s && c !in rep
    ensures c !in ReplaceFirst(s, pat, rep)
  {
    match Find(s, pat)
    case Some(i) =>
      var r := s[..i] + rep + s[i + |pat|..];
      forall k | 0 <= k < |r|
        ensures r[k] != c
      {
        if k < i {
          assert r[k] == s[k];
        } else if k < i + |rep| {
          assert r[k] == rep[k - i];
        } else {
          assert r[k] == s[k - |rep| + |pat|];
        }
      }
    case None =>
  }

  /** `s.startsWith(p)`. */
  predicate StartsWith(s: string, p: string) {
    p <= s
  }

  // ----- whitespace -----

  /** Python's `str.isspace()` on one character: what `str.strip()` removes. */
  predicate PythonIsSpace(c: char) {
    || ('\t' <= c <= '\r')
    || ('\U{1C}' <= c <= '\U{1F}')
    || c == ' '
    || c == '\U{85}'
    || c == '\U{A0}'
    || c == '\U{1680}'
    || ('\U{2000}' <= c <= '\U{200A}')
    || c == '\U{2028}'
    || c == '\U{2029}'
    || c == '\U{202F}'
    || c == '\U{205F}'
    || c == '\U{3000}'
  }

  /** ECMAScript WhiteSpace or LineTerminator: what `String.prototype.trim` removes. */
  predicate JsIsWhiteSpace(c: char) {
    || c == '\t'
    || c == '\n'
    || c == '\U{0B}'
    || c == '\U{0C}'
    || c == '\r'
    || c == ' '
    || c == '\U{A0}'
    || c == '\U{1680}'
    || ('\U{2000}' <= c <= '\U{200A}')
    || c == '\U{2028}'
    || c == '\U{2029}'
    || c == '\U{202F}'
    || c == '\U{205F}'
    || c == '\U{3000}'
    || c == '\U{FEFF}'
  }

  /** Drops the leading characters satisfying `ws`. */
  function TrimStart(s: string, ws: char -> bool): (r: string)
    ensures |r| <= |s|
    ensures r == s[|s| - |r|..]
    ensures r == [] || !ws(r[0])
    ensures forall i :: 0 <= i < |s| - |r| ==> ws(s[i])
    decreases |s|
  {
    if |s| > 0 && ws(s[0]) then TrimStart(s[1..], ws) else s
  }

  /** Drops the trailing characters satisfying `ws`. */
  function TrimEnd(s: string, ws: char -> bool): (r: string)
    ensures |r| <= |s|
    ensures r == s[..|r|]
    ensures r == [] || !ws(r[|r| - 1])
    ensures forall i :: |r| <= i < |s| ==> ws(s[i])
    decreases |s|
  {
    if |s| > 0 && ws(s[|s| - 1]) then TrimEnd(s[..|s| - 1], ws) else s
  }

  /** Drops leading and trailing characters satisfying `ws`. */
  function Trim(s: string, ws: char -> bool): string {
    TrimEnd(TrimStart(s, ws), ws)
  }

  /** A string trims to nothing exactly when every character is whitespace. */
  lemma TrimEmptyIff(s: string, ws: char -> bool)
    ensures Trim(s, ws) == [] <==> forall i :: 0 <= i < |s| ==> ws(s[i])
  {
    var a := TrimStart(s, ws);
    if Trim(s, ws) == [] {
      assert a == [];
    } else {
      var t := Trim(s, ws);
      assert t[0] == a[0] == s[|s| - |a|];
      assert !ws(a[0]);
    }
  }

  /** A trimmed string that is not empty starts and ends outside `ws`. */
  lemma TrimEnds(s: string, ws: char -> bool)
    ensures var r := Trim(s, ws);
      |r| <= |s| && (r != [] ==> !ws(r[0]) && !ws(r[|r| - 1]))
  {
    var a := TrimStart(s, ws);
    var r := Trim(s, ws);
    if r != [] {
      assert r[0] == a[0];
    }
  }

  /** A string that starts and ends outside `ws` trims to itself. */
  lemma TrimKeeps(s: string, ws: char -> bool)
    requires s != [] && !ws(s[0]) && !ws(s[|s| - 1])
    ensures Trim(s, ws) == s
  {
  }

  /** JavaScript `s.trim()`. */
  function JsTrim(s: string): (r: string)
    ensures |r| <= |s|
    ensures r == [] <==> forall i :: 0 <= i < |s| ==> JsIsWhiteSpace(s[i])
    ensures r != [] ==> !JsIsWhiteSpace(r[0]) && !JsIsWhiteSpace(r[|r| - 1])
  {
    TrimEmptyIff(s, JsIsWhiteSpace);
    TrimEnds(s, JsIsWhiteSpace);
    Trim(s, JsIsWhiteSpace)
  }

  /** Python `s.strip()`. */
  function PythonStrip(s: string): (r: string)
    ensures |r| <= |s|
    ensures r == [] <==> forall i :: 0 <= i < |s| ==> PythonIsSpace(s[i])
    ensures r != [] ==> !PythonIsSpace(r[0]) && !PythonIsSpace(r[|r| - 1])
  {
    TrimEmptyIff(s, PythonIsSpace);
    TrimEnds(s, PythonIsSpace);
    Trim(s, PythonIsSpace)
  }

  /** The two whitespace sets differ exactly on the information separators
      U+001C..U+001F and U+0085, which only Python strips, and the byte order
      mark U+FEFF, which only JavaScript trims. */
  lemma WhitespaceSetsDiffer(c: char)
    ensures PythonIsSpace(c) != JsIsWhiteSpace(c) <==>
      ('\U{1C}' <= c <= '\U{1F}' || c == '\U{85}' || c == '\U{FEFF}')
    ensures PythonIsSpace(c) && !JsIsWhiteSpace(c) <==> ('\U{1C}' <= c <= '\U{1F}' || c == '\U{85}')
  {
  }

  // ----- decimal numerals -----

  predicate IsDigit(c: char) {
    '0' <= c <= '9'
  }

  predicate AllDigits(s: string) {
    forall i :: 0 <= i < |s| ==> IsDigit(s[i])
  }

  /** The value of a string of decimal digits. */
  function DecimalValue(s: string): nat
    requires forall i :: 0 <= i < |s| ==> IsDigit(s[i])
  {
    if |s| == 0 then 0
    else
      assert IsDigit(s[|s| - 1]);
      DecimalValue(s[..|s| - 1]) * 10 + (s[|s| - 1] as int - '0' as int)
  }

  /** The decimal numeral of `n` without leading zeros, as `String(n)` renders it. */
  function NatToDecimal(n: nat): (r: string)
    ensures |r| > 0
    ensures forall i :: 0 <= i < |r| ==> IsDigit(r[i])
    ensures r[0] == '0' ==> n == 0
    ensures DecimalValue(r) == n
  {
    var d := [(('0' as int) + n % 10) as char];
    if n < 10 then d
    else
      var r := NatToDecimal(n / 10) + d;
      assert r[..|r| - 1] == NatToDecimal(n / 10);
      r
  }

  /** `String(n)` for a JavaScript integer. */
  function IntToDecimal(n: int): (r: string)
    ensures |r| > 0
    ensures n < 0 <==> r[0] == '-'
  {
    if n < 0 then "-" + NatToDecimal(-n) else NatToDecimal(n)
  }
}

=== FILE: theme.dfy ===
/**
 frontend/theme.js: the three-way theme switch (light, dark, follow the
 system), what it writes to the page and to `localStorage`, and how it
 follows the operating system's colour-scheme preference.
 */
module Theme {
  import opened Wrappers
  import Js

  /** `themes`, in cycling order. */
  const Themes: seq<string> := ["light", "dark", "system"]

  /** `themes.indexOf(name)`, with `None` for -1. */
  function IndexOf(name: string): (r: Option<nat>)
    ensures r.Some? ==> r.value < |Themes| && Themes[r.value] == name
    ensures r.None? <==> name !in Themes
  {
    if name == "light" then Some(0)
    else if name == "dark" then Some(1)
    else if name == "system" then Some(2)
    else None
  }

  /** What the theme code controls: `currentThemeIndex`, the `theme` entry of
      `localStorage`, `document.body.dataset.theme`, and which toggle icon is
      displayed (`None` when every icon is hidden). */
  datatype Page = Page(index: nat, saved: Option<string>, bodyTheme: string, shownIcon: Option<string>)

  /** The page before any theme code has run. */
  const Initial: Page := Page(0, None, "", None)

  /** The theme `applyTheme(theme)` puts on the body: `system` resolves to
      the operating system's preference, every other name is used as is. */
  function Effective(theme: string, prefersDark: bool): (r: string)
    ensures r != "system"
    ensures theme == "system" ==> (r == "dark" <==> prefersDark) && (r == "dark" || r == "light")
    ensures theme != "system" ==> r == theme
  {
    if theme == "system" then (if prefersDark then "dark" else "light") else theme
  }

  /** `applyTheme(theme)`. `icons` names the themes the page has a toggle
      icon for (the page markup is not part of this model). */
  function Apply(page: Page, theme: string, prefersDark: bool, icons: set<string>): (r: Page)
    ensures r.index == page.index && r.saved == page.saved
    ensures r.bodyTheme == Effective(theme, prefersDark)
    ensures r.shownIcon.Some? <==> theme in icons
    ensures r.shownIcon.Some? ==> r.shownIcon.value == theme
  {
    page.(bodyTheme := Effective(theme, prefersDark),
          shownIcon := if theme in icons then Some(theme) else None)
  }

  /** `setTheme(theme)`: an unknown name selects the `system` index, yet
      the name itself is stored and applied. */
  function SetTheme(page: Page, theme: string, prefersDark: bool, icons: set<string>): (r: Page)
    ensures r.index < |Themes|
    ensures theme in Themes ==> Themes[r.index] == theme
    ensures theme !in Themes ==> Themes[r.index] == "system"
    ensures r.saved == Some(theme)
    ensures r.bodyTheme == Effective(theme, prefersDark)
    ensures r.shownIcon == if theme in icons then Some(theme) else None
  {
    var index := match IndexOf(theme) case Some(i) => i case None => 2;
    Apply(page.(index := index, saved := Some(theme)), theme, prefersDark, icons)
  }

  /** For the three known names the page is consistent: the body carries
      `light` or `dark` as the selected theme resolves, and the icon shown is
      the selected theme's whenever the page has icons for all three. */
  lemma KnownThemeIsConsistent(page: Page, theme: string, prefersDark: bool, icons: set<string>)
    requires theme in Themes
    requires forall t :: t in Themes ==> t in icons
    ensures var r := SetTheme(page, theme, prefersDark, icons);
      && (r.bodyTheme == "light" || r.bodyTheme == "dark")
      && r.bodyTheme == Effective(Themes[r.index], prefersDark)
      && r.shownIcon == Some(Themes[r.index])
  {
  }

  /** An unknown name (here `blue`, say left in `localStorage` by hand)
      selects the `system` index, yet is stored and written to the body as
      is, with every toggle icon hidden. */
  lemma UnknownThemeKeepsRawName(prefersDark: bool)
    ensures var r := SetTheme(Initial, "blue", prefersDark, {"light", "dark", "system"});
      && Themes[r.index] == "system"
      && r.saved == Some("blue")
      && r.bodyTheme == "blue"
      && r.shownIcon == None
  {
  }

  /** `cycleTheme()`: advance the index modulo three and set that theme. */
  function CycleTheme(page: Page, prefersDark: bool, icons: set<string>): (r: Page)
    ensures r.index == (page.index + 1) % |Themes|
    ensures r.saved == Some(Themes[r.index])
    ensures r.bodyTheme == Effective(Themes[r.index], prefersDark)
  {
    SetTheme(page, Themes[(page.index + 1) % |Themes|], prefersDark, icons)
  }

  /** The toggle runs light, dark, system, and back to light. */
  lemma CycleOrder(page: Page, prefersDark: bool, icons: set<string>)
    ensures Themes[page.index % 3] == "light" ==> CycleTheme(page, prefersDark, icons).saved == Some("dark")
    ensures Themes[page.index % 3] == "dark" ==> CycleTheme(page, prefersDark, icons).saved == Some("system")
    ensures Themes[page.index % 3] == "system" ==> CycleTheme(page, prefersDark, icons).saved == Some("light")
  {
  }

  /** Pressing the toggle three times after choosing a theme restores the
      page exactly. */
  lemma ThreeCyclesRestore(page: Page, theme: string, prefersDark: bool, icons: set<string>)
    requires theme in Themes
    ensures var p := SetTheme(page, theme, prefersDark, icons);
      CycleTheme(CycleTheme(CycleTheme(p, prefersDark, icons), prefersDark, icons), prefersDark, icons) == p
  {
    var p := SetTheme(page, theme, prefersDark, icons);
    var c1 := CycleTheme(p, prefersDark, icons);
    var c2 := CycleTheme(c1, prefersDark, icons);
    assert (c2.index + 1) % |Themes| == p.index;
    SetThemeForgetsPage(c2, page, theme, prefersDark, icons);
  }

  /** `setTheme` overwrites everything the theme code controls, so its
      result does not depend on the page before. */
  lemma SetThemeForgetsPage(a: Page, b: Page, theme: string, prefersDark: bool, icons: set<string>)
    ensures SetTheme(a, theme, prefersDark, icons) == SetTheme(b, theme, prefersDark, icons)
  {
  }

  /** `initTheme()`: the saved theme, or `system` when none (or an empty
      string) is saved. */
  function InitTheme(page: Page, saved: Option<string>, prefersDark: bool, icons: set<string>): (r: Page)
    ensures r.index < |Themes|
    ensures saved.None? || saved.value == [] ==>
      Themes[r.index] == "system" && r.saved == Some("system")
      && r.bodyTheme == (if prefersDark then "dark" else "light")
    ensures saved.Some? && saved.value in Themes ==> Themes[r.index] == saved.value && r.saved == saved
  {
    SetTheme(page, Js.OrString(saved, "system"), prefersDark, icons)
  }

  /** A reload restores the theme chosen last: initialising from what
      `setTheme` saved selects the same theme and paints the same body. */
  lemma ReloadRestoresTheme(page: Page, theme: string, prefersDark: bool, icons: set<string>, other: Page)
    requires theme in Themes
    ensures var chosen := SetTheme(page, theme, prefersDark, icons);
      var reloaded := InitTheme(other, chosen.saved, prefersDark, icons);
      reloaded.index == chosen.index && reloaded.bodyTheme == chosen.bodyTheme
  {
  }

  /** The colour-scheme listener: it re-applies `system` only while the
      selected theme is `system`, and otherwise leaves the page alone. */
  function OnSystemChange(page: Page, prefersDark: bool, icons: set<string>): (r: Page)
    ensures page.index < |Themes| && Themes[page.index] == "system" ==>
      r.index == page.index && r.saved == page.saved
      && r.bodyTheme == (if prefersDark then "dark" else "light")
    ensures !(page.index < |Themes| && Themes[page.index] == "system") ==> r == page
  {
    if page.index < |Themes| && Themes[page.index] == "system" then Apply(page, "system", prefersDark, icons)
    else page
  }

  /** Under `system` the body follows every preference change; under an
      explicit choice it ignores them. */
  lemma SystemChangeFollowsOnlySystem(page: Page, theme: string, before: bool, after: bool, icons: set<string>)
    requires theme in Themes
    ensures var p := SetTheme(page, theme, before, icons);
      var q := OnSystemChange(p, after, icons);
      (theme == "system" ==> q.bodyTheme == Effective(theme, after))
      && (theme != "system" ==> q == p && q.bodyTheme == theme)
  {
  }
}

=== FILE: utils.dfy ===
/**
 backend/utils.py: the encryption wrapper around the server's symmetric
 cipher, and the random share-id generator.
 */
module Utils {
  import opened Wrappers

  // ----- encryption -----

  /** The symmetric cipher behind `EncryptionUtils` (Fernet with the server
      key): `encrypt` produces a token, `decrypt` either recovers the text or
      raises with the message `str(e)`. */
  datatype Cipher = Cipher(encrypt: string -> string, decrypt: string -> Result<string, string>)

  /** What the server relies on from the cipher: a non-empty text gives a
      non-empty token (Fernet tokens are never empty), and decrypting the token
      gives the text back. */
  ghost predicate RoundTrips(c: Cipher) {
    forall t: string ::
      t != [] ==> c.encrypt(t) != [] && c.decrypt(c.encrypt(t)) == Success(t)
  }

  /** Prefix of the `ValueError` raised when the cipher rejects a token. */
  const DecryptFailedPrefix: string := "解密失败: "

  /** `encrypt_text`: the empty text short-circuits to the empty token and the
      cipher is not consulted; otherwise the cipher's token. */
  function EncryptText(c: Cipher, text: string): (token: string)
    ensures text == [] ==> token == []
    ensures RoundTrips(c) ==> (token == [] <==> text == [])
    ensures RoundTrips(c) ==> DecryptText(c, token) == Success(text)
  {
    if text == [] then [] else c.encrypt(text)
  }

  /** `decrypt_text`: the empty token decrypts to the empty text; any cipher
      failure surfaces as a single `ValueError`, modelled as `Failure` with the
      error's message. */
  function DecryptText(c: Cipher, token: string): (r: Result<string, string>)
    ensures token == [] ==> r == Success([])
    ensures r.Failure? ==> token != [] && c.decrypt(token).Failure?
    ensures r.Failure? ==> r.error == DecryptFailedPrefix + c.decrypt(token).error
    ensures r.Success? && token != [] ==> c.decrypt(token) == r
  {
    if token == [] then Success([])
    else
      match c.decrypt(token)
      case Success(text) => Success(text)
      case Failure(msg) => Failure(DecryptFailedPrefix + msg)
  }

  /** Text that survives a round trip through `encrypt_text` and `decrypt_text`,
      the empty text included. */
  lemma EncryptDecryptRoundTrip(c: Cipher, text: string)
    requires RoundTrips(c)
    ensures DecryptText(c, EncryptText(c, text)) == Success(text)
  {
  }

  // ----- share ids -----

  /** `generate_unique_id`'s default length. */
  const DefaultIdLength: nat := 8

  const AsciiLowercase: string := "abcdefghijklmnopqrstuvwxyz"
  const AsciiUppercase: string := "ABCDEFGHIJKLMNOPQRSTUVWXYZ"

  /** `string.ascii_letters`. */
  const AsciiLetters: string := AsciiLowercase + AsciiUppercase

  /** `string.digits`. */
  const Digits: string := "0123456789"

  /** The id alphabet, `ascii_letters + digits`. */
  const Alphabet: string := AsciiLetters + Digits

  /** Each block of the alphabet is a run of consecutive code points. */
  lemma AlphabetBlocks()
    ensures |Alphabet| == 62
    ensures forall i :: 0 <= i < 26 ==> Alphabet[i] as int == 'a' as int + i
    ensures forall i :: 26 <= i < 52 ==> Alphabet[i] as int == 'A' as int + (i - 26)
    ensures forall i :: 52 <= i < 62 ==> Alphabet[i] as int == '0' as int + (i - 52)
  {
    assert forall i :: 0 <= i < 26 ==> AsciiLowercase[i] as int == 'a' as int + i;
    assert forall i :: 0 <= i < 26 ==> AsciiUppercase[i] as int == 'A' as int + i;
    assert forall i :: 0 <= i < 10 ==> Digits[i] as int == '0' as int + i;
  }

  /** An ASCII letter or digit. */
  predicate IsIdChar(c: char) {
    ('a' <= c <= 'z') || ('A' <= c <= 'Z') || ('0' <= c <= '9')
  }

  /** Every alphabet entry is a letter or digit. */
  lemma AlphabetIsAlphanumeric()
    ensures |Alphabet| == 62
    ensures forall i :: 0 <= i < |Alphabet| ==> IsIdChar(Alphabet[i])
  {
    AlphabetBlocks();
  }

  /** The position of a letter or digit in the alphabet. */
  function AlphabetIndex(c: char): (k: nat)
    requires IsIdChar(c)
    ensures k < |Alphabet| && Alphabet[k] == c
  {
    AlphabetBlocks();
    if 'a' <= c <= 'z' then c as int - 'a' as int
    else if 'A' <= c <= 'Z' then 26 + (c as int - 'A' as int)
    else 52 + (c as int - '0' as int)
  }

  /** `generate_unique_id(length)`: `length` independent `secrets.choice`
      draws from the alphabet. `choice(i)` is the alphabet position drawn for
      character `i` (reduced modulo the alphabet size). */
  function GenerateUniqueId(length: nat, choice: nat -> nat): (id: string)
    ensures |id| == length
    ensures forall i :: 0 <= i < |id| ==> IsIdChar(id[i])
  {
    AlphabetIsAlphanumeric();
    seq(length, i requires 0 <= i < length => Alphabet[choice(i) % |Alphabet|])
  }

  /** Conversely, every string of letters and digits of the given length is
      some run of draws, so the generator's range is exactly those strings. */
  lemma EveryAlphanumericIdIsGenerated(id: string)
    requires forall i :: 0 <= i < |id| ==> IsIdChar(id[i])
    ensures exists choice: nat -> nat :: GenerateUniqueId(|id|, choice) == id
  {
    var choice := (i: nat) => if i < |id| && IsIdChar(id[i]) then AlphabetIndex(id[i]) else 0;
    DrawsSpellId(id, choice);
  }

  /** Draws that name each character's alphabet position spell the id. */
  lemma DrawsSpellId(id: string, choice: nat -> nat)
    requires forall i :: 0 <= i < |id| ==> choice(i) < |Alphabet| && Alphabet[choice(i)] == id[i]
    ensures GenerateUniqueId(|id|, choice) == id
  {
    var g := GenerateUniqueId(|id|, choice);
    forall i | 0 <= i < |id|
      ensures g[i] == id[i]
    {
      assert choice(i) % |Alphabet| == choice(i);
    }
  }
}

=== FILE: view.dfy ===
/**
 frontend/view.js: the stand-alone view page — which id it loads, how it
 words the remaining lifetime and the view count, and which of its four
 sections it shows after each reply.
 */
module ViewPage {
  import opened Wrappers
  import opened Text
  import opened Utils
  import opened Schemas
  import opened Models
  import Api
  import Js
  import Script

  type Section = Script.Section

  // ----- the id to load -----

  const InvalidLinkMessage: string := "无效的分享链接"

  /** `urlParams.get('id') || location.pathname.split('/').pop()`. */
  function PageId(queryId: Option<string>, pathname: string): (id: string)
    ensures queryId.Some? && queryId.value != [] ==> id == queryId.value
    ensures queryId.None? || queryId.value == [] ==> '/' !in id && |id| <= |pathname| && id == pathname[|pathname| - |id|..]
    ensures queryId.None? || queryId.value == [] ==> |id| == |pathname| || pathname[|pathname| - |id| - 1] == '/'
  {
    var last := SplitLast(pathname, "/");
    NoOccurrenceOfChar(last, '/');
    Js.OrString(queryId, last)
  }

  /** What the page does once loaded: fetch the id, or show the invalid-link
      error without fetching. */
  datatype Start = Load(id: string) | Invalid(message: string)

  function OnPageLoad(queryId: Option<string>, pathname: string): (r: Start)
    ensures r.Invalid? <==> PageId(queryId, pathname) == [] || PageId(queryId, pathname) == "view.html"
    ensures r.Invalid? ==> r.message == InvalidLinkMessage
    ensures r.Load? ==> r.id == PageId(queryId, pathname)
  {
    var id := PageId(queryId, pathname);
    if id == [] || id == "view.html" then Invalid(InvalidLinkMessage) else Load(id)
  }

  /** The last path segment of `dir/id` is `id`. */
  lemma LastSegment(dir: string, id: string)
    requires '/' !in id
    ensures SplitLast(dir + "/" + id, "/") == id
  {
    var s := dir + "/" + id;
    var r := SplitLast(s, "/");
    NoOccurrenceOfChar(r, '/');
    assert s[|s| - |id| - 1] == '/';
    assert s[|s| - |id|..] == id;
  }

  /** A path ending in a plain id loads that id when no `id` parameter is
      given; a query parameter wins over the path. */
  lemma PathOrQueryIdLoads(dir: string, id: string, q: string)
    requires id != [] && '/' !in id && id != "view.html"
    requires q != [] && q != "view.html"
    ensures OnPageLoad(None, dir + "/" + id) == Load(id)
    ensures OnPageLoad(Some(q), dir + "/" + id) == Load(q)
  {
    LastSegment(dir, id);
  }

  /** The page itself, or a path ending in `/`, is an invalid link. */
  lemma PageWithoutIdIsInvalid(dir: string)
    ensures OnPageLoad(None, dir + "/view.html").Invalid?
    ensures OnPageLoad(None, dir + "/").Invalid?
    ensures OnPageLoad(Some([]), dir + "/").Invalid?
  {
    LastSegment(dir, "view.html");
    assert dir + "/view.html" == dir + "/" + "view.html";
    LastSegment(dir, []);
    assert dir + "/" == dir + "/" + [];
  }

  // ----- the remaining lifetime -----

  const MsPerHour: int := 1000 * 60 * 60
  const MsPerMinute: int := 1000 * 60

  /** How `updateMetaInfo` classifies the lifetime: no `expires_at`, already
      past, or hours and minutes left (minutes alone under an hour). */
  datatype Expiry = NeverExpires | AlreadyExpired | HoursMinutes(hours: nat, minutes: nat) | MinutesOnly(minutes: nat)

  /** `remainingMs` is `new Date(expires_at) - new Date()`, meaningful only
      when `hasExpiresAt` (the field is truthy). */
  function ExpiryOf(hasExpiresAt: bool, remainingMs: int): (e: Expiry)
    ensures e == NeverExpires <==> !hasExpiresAt
    ensures e == AlreadyExpired <==> hasExpiresAt && remainingMs <= 0
    ensures e.HoursMinutes? <==> hasExpiresAt && remainingMs >= MsPerHour
    ensures e.HoursMinutes? ==>
      && e.hours > 0 && e.minutes < 60
      && e.hours * MsPerHour + e.minutes * MsPerMinute <= remainingMs
      && remainingMs < e.hours * MsPerHour + (e.minutes + 1) * MsPerMinute
    ensures e.MinutesOnly? ==>
      && 0 < remainingMs < MsPerHour && e.minutes < 60
      && e.minutes * MsPerMinute <= remainingMs < (e.minutes + 1) * MsPerMinute
  {
    if !hasExpiresAt then NeverExpires
    else if remainingMs <= 0 then AlreadyExpired
    else
      var hours := remainingMs / MsPerHour;
      var minutes := (remainingMs % MsPerHour) / MsPerMinute;
      if hours > 0 then HoursMinutes(hours, minutes) else MinutesOnly(minutes)
  }

  const NeverExpiresText: string := "⏰ 永不过期"
  const AlreadyExpiredText: string := "⏰ 已过期"

  /** The `expire-info` text. */
  function ExpireText(e: Expiry): (t: string)
    ensures "⏰ " <= t
    ensures e.NeverExpires? ==> t == NeverExpiresText
    ensures e.AlreadyExpired? ==> t == AlreadyExpiredText
  {
    match e
    case NeverExpires => NeverExpiresText
    case AlreadyExpired => AlreadyExpiredText
    case HoursMinutes(h, m) => "⏰ " + NatToDecimal(h) + "小时" + NatToDecimal(m) + "分钟后过期"
    case MinutesOnly(m) => "⏰ " + NatToDecimal(m) + "分钟后过期"
  }

  /** The text mentions hours (小时) exactly when at least an hour is left. */
  lemma ExpireTextMentionsHoursIff(e: Expiry)
    ensures Contains(ExpireText(e), "小时") <==> e.HoursMinutes?
  {
    var t := ExpireText(e);
    match e
    case HoursMinutes(h, m) =>
      ExpireTextShowsNumerals(e);
    case MinutesOnly(m) =>
      var d := NatToDecimal(m);
      assert t == "⏰ " + d + "分钟后过期";
      forall i | 0 <= i < |t|
        ensures t[i] != '小'
      {
        if 2 <= i < 2 + |d| {
          assert t[i] == d[i - 2];
        }
      }
      MissingCharBlocksFind(t, "小时", 0);
    case NeverExpires =>
      MissingCharBlocksFind(t, "小时", 0);
    case AlreadyExpired =>
      MissingCharBlocksFind(t, "小时", 0);
  }

  /** The numerals read back: the digits before 小时 are the hours and the
      digits before 分钟 the minutes. */
  lemma ExpireTextShowsNumerals(e: Expiry)
    requires e.HoursMinutes? || e.MinutesOnly?
    ensures var t := ExpireText(e);
      |t| > 7 && t[..2] == "⏰ " && t[|t| - 5..] == "分钟后过期"
    ensures e.MinutesOnly? ==>
      var t := ExpireText(e);
      var d := t[2..|t| - 5];
      AllDigits(d) && DecimalValue(d) == e.minutes
    ensures e.HoursMinutes? ==>
      var t := ExpireText(e);
      && Find(t, "小时").Some?
      && var k := Find(t, "小时").value;
      && 2 < k && k + 2 < |t| - 5
      && AllDigits(t[2..k]) && DecimalValue(t[2..k]) == e.hours
      && AllDigits(t[k + 2..|t| - 5]) && DecimalValue(t[k + 2..|t| - 5]) == e.minutes
  {
    var t := ExpireText(e);
    match e
    case MinutesOnly(m) =>
      var d := NatToDecimal(m);
      assert t == "⏰ " + d + "分钟后过期";
      assert t[2..|t| - 5] == d;
    case HoursMinutes(h, m) =>
      var hd := NatToDecimal(h);
      var md := NatToDecimal(m);
      var k := 2 + |hd|;
      assert t == "⏰ " + hd + "小时" + md + "分钟后过期";
      assert t[2..k] == hd;
      assert t[k + 2..|t| - 5] == md;
      assert OccursAt(t, "小时", k) by {
        assert t[k..k + 2] == "小时";
      }
      forall j: nat | j < k
        ensures !OccursAt(t, "小时", j)
      {
        assert t[j] != '小' by {
          if 2 <= j {
            assert t[j] == hd[j - 2];
          }
        }
        assert t[j..j + 2][0] == t[j];
      }
      FindIsFirstOccurrence(t, "小时", k);
  }

  // ----- the view count -----

  const UnlimitedViewsText: string := "👁️ 无限制查看"

  /** The `views-info` text: the count and the limit when the limit is
      truthy, otherwise the unlimited text. */
  function ViewsText(viewCount: Js.Value, maxViews: Js.Value): (t: string)
    ensures t == UnlimitedViewsText <==> !Js.Truthy(maxViews)
    ensures Js.Truthy(maxViews) ==>
      "👁️ " <= t && |t| >= 4 && t[|t| - 4..] == " 次查看"
  {
    if Js.Truthy(maxViews) then
      var t := "👁️ " + Js.Render(viewCount) + "/" + Js.Render(maxViews) + " 次查看";
      assert t[|t| - 4] == ' ' != UnlimitedViewsText[|UnlimitedViewsText| - 4];
      t
    else UnlimitedViewsText
  }

  /** With a limit, the text shows the view count and the limit as numerals. */
  lemma ViewsTextShowsCounts(v: nat, m: nat)
    requires m > 0
    ensures ViewsText(Js.Num(v), Js.Num(m)) == "👁️ " + NatToDecimal(v) + "/" + NatToDecimal(m) + " 次查看"
  {
  }

  // ----- the four sections -----

  /** What the view page's code writes: the one displayed section, the error
      text, the password field and its error line, and the content card. */
  datatype Page = Page(
    displayed: set<Section>,
    errorMessage: string,
    passwordField: string,
    passwordErrorShown: bool,
    content: string,
    expireText: string,
    viewsText: string,
    warningShown: bool)

  /** `hideAllSections()`. */
  function HideAllSections(p: Page): (r: Page)
    ensures r.displayed == {}
    ensures r.(displayed := p.displayed) == p
  {
    p.(displayed := {})
  }

  /** `showLoading()`. */
  function ShowLoading(p: Page): (r: Page)
    ensures r.displayed == {Script.Loading}
    ensures r.(displayed := p.displayed) == p
  {
    HideAllSections(p).(displayed := {Script.Loading})
  }

  /** `showPasswordSection()`: also clears the field and hides its error. */
  function ShowPasswordSection(p: Page): (r: Page)
    ensures r.displayed == {Script.Password}
    ensures r.passwordField == [] && !r.passwordErrorShown
    ensures r.(displayed := p.displayed, passwordField := p.passwordField, passwordErrorShown := p.passwordErrorShown) == p
  {
    HideAllSections(p).(displayed := {Script.Password}, passwordField := [], passwordErrorShown := false)
  }

  /** `showError(message)`. */
  function ShowError(p: Page, message: string): (r: Page)
    ensures r.displayed == {Script.Error} && r.errorMessage == message
    ensures r.(displayed := p.displayed, errorMessage := p.errorMessage) == p
  {
    HideAllSections(p).(displayed := {Script.Error}, errorMessage := message)
  }

  /** The fields of a paste as the view page reads them from the reply. */
  datatype PasteData = PasteData(
    content: Js.Value,
    expiresAt: Js.Value,
    viewCount: Js.Value,
    maxViews: Js.Value,
    willDestroy: Js.Value,
    requiresPassword: Js.Value)

  /** `element.textContent = v`: null and undefined clear the text. */
  function TextContent(v: Js.Value): (t: string)
    ensures v.Str? ==> t == v.s
    ensures v.Undefined? || v.Null? ==> t == []
  {
    match v
    case Undefined => []
    case Null => []
    case _ => Js.Render(v)
  }

  /** `showContent(data)` with `updateMetaInfo(data)`; `remainingMs` is the
      time left until `expires_at`. */
  function ShowContent(p: Page, data: PasteData, remainingMs: int): (r: Page)
    ensures r.displayed == {Script.Content}
    ensures r.content == TextContent(data.content)
    ensures r.expireText == ExpireText(ExpiryOf(Js.Truthy(data.expiresAt), remainingMs))
    ensures r.viewsText == ViewsText(data.viewCount, data.maxViews)
    ensures r.warningShown <==> Js.Truthy(data.willDestroy)
    ensures r.(displayed := p.displayed, content := p.content, expireText := p.expireText,
               viewsText := p.viewsText, warningShown := p.warningShown) == p
  {
    HideAllSections(p).(
      displayed := {Script.Content},
      content := TextContent(data.content),
      expireText := ExpireText(ExpiryOf(Js.Truthy(data.expiresAt), remainingMs)),
      viewsText := ViewsText(data.viewCount, data.maxViews),
      warningShown := Js.Truthy(data.willDestroy))
  }

  /** Whatever the page showed before, every `show*` helper leaves exactly
      one of the four sections displayed. */
  lemma EveryHelperShowsOneSection(p: Page, message: string, data: PasteData, remainingMs: int)
    ensures |ShowLoading(p).displayed| == 1
    ensures |ShowPasswordSection(p).displayed| == 1
    ensures |ShowError(p, message).displayed| == 1
    ensures |ShowContent(p, data, remainingMs).displayed| == 1
    ensures ShowLoading(p).displayed != ShowContent(p, data, remainingMs).displayed
  {
  }

  // ----- loading -----

  const FetchFailedMessage: string := "获取内容失败"
  const NetworkErrorMessage: string := "网络错误，请稍后重试"

  /** How the fetch in `loadPaste` ended: a successful reply, an error reply
      with its `detail`, or a thrown network error with its message. */
  datatype LoadReply = Loaded(data: PasteData) | Refused(detail: Option<string>) | NetworkFailure(message: string)

  /** `loadPaste()` after `showLoading()`: a password prompt when the reply
      says one is required, the content otherwise, and the error section
      with the best message available on failure. */
  function LoadPaste(p: Page, reply: LoadReply, remainingMs: int): (r: Page)
    ensures reply.Loaded? && Js.Truthy(reply.data.requiresPassword) ==> r.displayed == {Script.Password}
    ensures reply.Loaded? && !Js.Truthy(reply.data.requiresPassword) ==>
      r == ShowContent(ShowLoading(p), reply.data, remainingMs)
    ensures reply.Refused? ==>
      && r.displayed == {Script.Error}
      && r.errorMessage == (if reply.detail.Some? && reply.detail.value != [] then reply.detail.value else FetchFailedMessage)
    ensures reply.NetworkFailure? ==>
      && r.displayed == {Script.Error}
      && r.errorMessage == (if reply.message != [] then reply.message else NetworkErrorMessage)
  {
    var loading := ShowLoading(p);
    match reply
    case Loaded(data) =>
      if Js.Truthy(data.requiresPassword) then ShowPasswordSection(loading) else ShowContent(loading, data, remainingMs)
    case Refused(detail) =>
      var message := Js.OrString(detail, FetchFailedMessage);
      ShowError(loading, if message != [] then message else NetworkErrorMessage)
    case NetworkFailure(message) =>
      ShowError(loading, if message != [] then message else NetworkErrorMessage)
  }

  /** The server's reply as the view page receives it: a read returns only
      the content, so every other field is undefined. */
  function LoadReplyOf(r: Result<ViewResponse, Api.HttpError>): LoadReply {
    match r
    case Success(v) =>
      Loaded(PasteData(Js.Str(v.content), Js.Undefined, Js.Undefined, Js.Undefined, Js.Undefined, Js.Undefined))
    case Failure(e) => Refused(Some(e.detail))
  }

  /** Against this server the view page never asks for a password and never
      shows a lifetime, a view count or the burn warning: a successful read
      shows the content with the "never expires" and "unlimited views"
      texts, and a failed one shows the server's message. */
  lemma ServerRepliesOnViewPage(p: Page, store: Store, id: string, now: int, cipher: Cipher, remainingMs: int)
    ensures var r := Api.Get(store, id, now, cipher).result;
      var shown := LoadPaste(p, LoadReplyOf(r), remainingMs);
      && (r.Success? ==>
           && shown.displayed == {Script.Content}
           && shown.content == r.value.content
           && shown.expireText == NeverExpiresText
           && shown.viewsText == UnlimitedViewsText
           && !shown.warningShown)
      && (r.Failure? ==> shown.displayed == {Script.Error} && shown.errorMessage == r.error.detail)
  {
    var r := Api.Get(store, id, now, cipher).result;
    Api.GetFailureKinds(store, id, now, cipher);
    if r.Failure? && r.error.status == 500 {
      assert r.error.detail[..|Api.GetFailedPrefix|] == Api.GetFailedPrefix;
      assert r.error.detail != [];
    }
  }
}

=== FILE: wrappers.dfy ===
/** The two failure-carrying shapes used throughout the model. */
module Wrappers {

  /** A value that may be absent: Python's `None`, JavaScript's `null`. */
  datatype Option<+T> = None | Some(value: T)

  /** The outcome of an operation that may raise: a value or an error. */
  datatype Result<+T, +E> = Success(value: T) | Failure(error: E)
}
